=== FILE: README.md ===
# motif-mark in Dafny

A model of `motif-mark-oop.py`, a script that draws one track per sequence of
a FASTA file. Each track shows:

- the gene as a line;
- the exon, which is the upper-case run of the sequence, as a black block;
- a colored block for every occurrence of every motif from a motif file.

Motifs may use the IUPAC nucleotide ambiguity codes.

The model is pure functions over lines and strings:

| module | file | what it models |
|---|---|---|
| `Wrappers` | wrappers.dfy | `Option` and `Result` |
| `Text` | text.dfy | ASCII `upper`/`isupper`/`islower`, and Python's `str.strip` with the `isspace` set |
| `Iupac` | iupac.dfy | `ambiguous_nt_dict` and `non_ambig_motifs`; the table walk is proved equal to a symbol-by-symbol reference expansion |
| `Pattern` | pattern.dfy | how the regular-expression engine reads an expanded motif: a sequence of per-position character classes |
| `Scanner` | scanner.dfy | `re.finditer` for such a pattern: a leftmost, non-overlapping scan, proved equal to an independent characterisation |
| `Exon` | exon.dfy | `find_exon`, with its two failure modes made explicit |
| `OrderedMap` | ordered_map.dfy | a Python `dict` with string keys, as an insertion-ordered list of pairs |
| `Parsers` | parsers.dfy | the motif-file loop and the FASTA loop over the file's lines |
| `Layout` | layout.dfy | the track, color and canvas arithmetic, and the whole run |

Drawing is recorded as shapes with integer coordinates. This is exact here:

- `ALIGN/2` is 20.
- `ALIGN*1.3` is 52.
- `IMAGE_HEIGHT/5` is 14.

A color is an index into the four-entry palette.

Where the script would raise an exception, the model returns a `Failure`:

- `UnboundLocalError` in `find_exon` gives `NoExon` or `UnterminatedExon`.
- A body line before any header reads the global `header` before any line has bound it. That `NameError` gives `MissingHeader`.
- `IndexError` on `color_list[j]` gives `ColorOutOfRange`.
- With no motifs at all (an empty motif file, or one whose first line is
  blank), the motif legend loop never runs. `y_start` is then never bound, and
  the exon legend (line 209) raises a `NameError`. The model gives `NoMotifs`.
  This happens after every track is drawn, so a missing exon is still
  reported first (`Layout.RunOutcome`, `Layout.NoMotifsExample`).

Where the script's behaviour may be surprising, the model follows the code:

- **The palette does not wrap.** `color_list[j]` has no modulo, so a fifth
  motif fails. If it occurs in some sequence, it fails on line 177. Otherwise
  it fails in the legend loop on line 193, which indexes the palette with
  every motif's position, so any run with more than four motifs fails.
- **A sequence that starts in its exon is accepted.** `find_exon("ACGTacgt")`
  returns `(0, 4)` (`Exon.ExonAtStartExample`).
- **The exon is the range with no lower-case character.** `find_exon`'s second
  loop stops at the first lower-case character, not at the first character
  that is not upper-case. So digits or `-` inside the exon are kept in it.
  On letters-only sequences the exon is all upper case (`Exon.ExonAllUpper`).
- **The scan runs over the upper-cased sequence.** So for `acgtACGTacgt` and
  the motif `ACGT` there are three motif blocks, not only the one over the
  exon (`Layout.ExampleRun`).
- **`[A|T]` is a character class.** It matches `A`, `T` and also `|`
  (`Pattern.MotifClassesUpper`, `Pattern.CompileExpand`).

## Model

| member | source | states |
|---|---|---|
| Text.Upper | motif-mark-oop.py:120 | upper-casing keeps the length, maps each character through the case map, and leaves no lower-case letter |
| Text.UpperOfNoLower | motif-mark-oop.py:120 | upper-casing a string with no lower-case letter changes nothing |
| Text.Strip | motif-mark-oop.py:129 | the stripped line is empty exactly when the line is all whitespace; otherwise it is the slice between the leading and trailing whitespace runs and starts and ends with a non-space |
| Text.StripTrailingNewline | motif-mark-oop.py:139 | a trailing newline never changes what a line strips to, for every line |
| Text.StripNewline | motif-mark-oop.py:139 | a line with no surrounding whitespace, read with its trailing newline, strips to itself |
| Iupac.TableWellFormed | motif-mark-oop.py:104-116 | the table has the eleven codes; each row's replacement is a bracketed class of upper-case letters and `\|`, with no code letter in it; each code finds its own row |
| Iupac.ClassText | motif-mark-oop.py:104-116 | the class text of a code is bracketed and contains no code letter and no lower-case letter |
| Iupac.Replace | motif-mark-oop.py:122 | after `str.replace` of a character by a text not containing it, the character no longer occurs |
| Iupac.ReplaceAppend | motif-mark-oop.py:122 | `str.replace` of one character works piecewise over concatenation |
| Iupac.ExpandIsSymbolwise | motif-mark-oop.py:118-124 | walking the table row by row with `replace` equals replacing each code letter of the upper-cased motif by exactly its table entry, and passing every other character through, in input order; nothing is expanded twice |
| Iupac.SymbolwiseOne | motif-mark-oop.py:104-124 | one symbol expands to its table entry if it is a code, and to itself otherwise |
| Iupac.ExpandNoCodes | motif-mark-oop.py:118-124 | an expanded motif contains none of the eleven code letters and no lower-case letter |
| Iupac.ExpandPlain | motif-mark-oop.py:118-124 | on a motif whose upper-cased form has no code letters, expansion is just upper-casing |
| Iupac.ExpandIdempotent | motif-mark-oop.py:118-124 | expanding an expanded motif changes nothing |
| Iupac.ExpandExample | motif-mark-oop.py:104-124 | `acgtn` expands to `ACGT[A\|C\|G\|T]` |
| Pattern.ClassesOf | motif-mark-oop.py:173 | one class per motif symbol, in order: the characters of the symbol's table entry for a code, the symbol alone otherwise |
| Pattern.CompileExpand | motif-mark-oop.py:173 | for a motif of letters, the regular expression built from its expansion is well formed and denotes exactly one class per motif symbol, so it is as long as the motif |
| Pattern.MotifClassesUpper | motif-mark-oop.py:173 | for a motif of letters, every character a motif's class accepts is an upper-case letter or `\|` |
| Scanner.FirstMatch | motif-mark-oop.py:173-174 | the search finds the leftmost match at or after the resume position, and finds none when none exists |
| Scanner.ScanFrom | motif-mark-oop.py:173-176 | every reported match is a real match of the pattern's length (`stop = start + \|motif\|`), starts strictly increase, and no two matches overlap |
| Scanner.ScanIsGreedy | motif-mark-oop.py:173-176 | the scan is a leftmost, non-overlapping scan: nothing matches between the resume point and each reported start, and nothing matches after the last |
| Scanner.GreedyIsScan | motif-mark-oop.py:173-176 | any sequence of spans that is a leftmost non-overlapping scan is the scan, so the scan is uniquely determined |
| Scanner.ScanGaps | motif-mark-oop.py:173-176 | no match starts before the first reported match, between a match's end and the next start, or after the last match |
| Scanner.ScanExample | motif-mark-oop.py:173-176 | `ACGT` in `ACGTACGT` gives the back-to-back matches `[0,4)` and `[4,8)` |
| Exon.FindUpper | motif-mark-oop.py:91-94 | the first upper-case index at or after the start, or none when there is none |
| Exon.FindLower | motif-mark-oop.py:96-99 | the first lower-case index at or after the start, or none when there is none |
| Exon.FindExon | motif-mark-oop.py:90-101 | on success, `0 <= start < stop < \|s\|`, start is the first upper-case index, nothing in `[start, stop)` is lower case, and `s[stop]` is lower case; it fails with `NoExon` exactly when nothing is upper case, with `UnterminatedExon` exactly when no lower-case character follows the first upper-case one, and succeeds exactly when an exon exists |
| Exon.ExonAllUpper | motif-mark-oop.py:90-101 | on a letters-only sequence every character of the exon is upper case |
| Exon.ExonExample | motif-mark-oop.py:90-101 | `acgtACGTacgt` has exon `[4, 8)` |
| Exon.ExonAtStartExample | motif-mark-oop.py:90-101 | `ACGTacgt` has exon `[0, 4)` |
| Exon.NoExonExample | motif-mark-oop.py:90-101 | `acgtacgt` has no exon |
| OrderedMap.Get | motif-mark-oop.py:146 | a lookup finds a value exactly when the key is present |
| OrderedMap.Put | motif-mark-oop.py:144 | `d[k] = v` keeps an existing key in its place and appends a new key at the end; `k` then maps to `v` and every other key keeps its value |
| OrderedMap.PutPut | motif-mark-oop.py:144 | assigning a key twice is the same as assigning the second value |
| OrderedMap.FromPairsKeys | motif-mark-oop.py:132 | a dictionary filled by assignments holds each assigned key once, in order of first assignment |
| OrderedMap.FromPairsGet | motif-mark-oop.py:132 | each key of such a dictionary maps to the value of its last assignment |
| Parsers.Live | motif-mark-oop.py:128-131 | the lines a reading loop processes are the stripped lines before the first blank one, and none of them is empty |
| Parsers.LivePrefix | motif-mark-oop.py:128-131 | if every line before position `n` is already stripped and non-empty and line `n` strips to nothing (or there is none), the lines read are exactly the first `n` |
| Parsers.ParseMotifsSpec | motif-mark-oop.py:126-132 | the motif dictionary holds each distinct live line once, in order of first appearance, keyed by the line as written and mapped to its expansion; no key is empty |
| Parsers.ParseFastaOutcome | motif-mark-oop.py:136-146 | the FASTA reader fails exactly when the first live line is not a header; otherwise it builds the dictionary by assigning each header its joined body lines, record by record |
| Parsers.ParseFastaSpec | motif-mark-oop.py:136-146 | the FASTA dictionary holds each distinct header once, in order of first appearance, mapped to the joined body of its last record |
| Parsers.MissingHeaderExample | motif-mark-oop.py:145-146 | a body line before any header fails |
| Parsers.RepeatedHeaderExample | motif-mark-oop.py:140-146 | a repeated header keeps its first position but restarts its body, and a blank line ends the input |
| Layout.MarksSucceed | motif-mark-oop.py:172-177 | with no more motifs than colors, drawing the motif blocks of a track never fails |
| Layout.MarksFail | motif-mark-oop.py:172-177 | drawing the motif blocks of a track fails exactly when a motif at position 4 or later occurs in the sequence |
| Layout.MarksExact | motif-mark-oop.py:172-178 | every motif block drawn belongs to an occurrence of some motif and has that motif's color; every occurrence of every motif gets its block |
| Layout.MarksCount | motif-mark-oop.py:172-178 | a track gets as many motif blocks as the scans report occurrences, all motifs together |
| Layout.TracksOutcome | motif-mark-oop.py:162-178 | the tracks are drawn only if every sequence has an exon; with no more motifs than colors, they are drawn exactly when every sequence has an exon |
| Layout.TrackOutcome | motif-mark-oop.py:162-178 | one track fails if its sequence has no exon; with at most four motifs that is the only way it fails |
| Layout.TracksErrors | motif-mark-oop.py:162-178 | drawing the tracks fails only on a missing exon or a color out of range; with every exon present only on a color; with few enough motifs only on an exon |
| Layout.DrawTracks | motif-mark-oop.py:162-178 | a successful drawing has one track per entry, and track `k` is entry `k` drawn at position `k` |
| Layout.MotifPatterns | motif-mark-oop.py:172-173 | one pattern per motif, in dictionary order; pattern `j` is the class sequence of motif `j` (for each symbol of the upper-cased motif, its IUPAC class or the symbol itself), and no motif is empty |
| Layout.MotifsCompile | motif-mark-oop.py:173 | each motif's expansion compiles to the classes of the motif |
| Layout.DrawTrackSpec | motif-mark-oop.py:43-86 | a drawn track has all of the following: the gene line from x=40 to 40+length at y=70k+80; the header to its upper left; a black block exactly over the exon; a block for every occurrence the scan reports for every motif, every block being the block of such an occurrence, in that motif's color and as wide as the motif, with as many blocks as occurrences; everything inside the track's 70-high band; and all of it fits the 840-wide canvas exactly when the sequence has at most 800 bases |
| Layout.BandsDisjoint | motif-mark-oop.py:45-86 | shapes in the bands of different tracks do not overlap vertically |
| Layout.BandInCanvas | motif-mark-oop.py:150-153 | every track's band lies inside the canvas of height `70n + 100` |
| Layout.RunOutcome | motif-mark-oop.py:126-209 | the run succeeds exactly when the FASTA file starts with a header, every sequence has an exon, and there are one to four motifs; a missing header is reported first; with at most four motifs a missing exon comes next; with every exon present, too many motifs fail on a color and no motifs fail on the unbound legend position |
| Layout.RunLayout | motif-mark-oop.py:149-178 | a successful run draws on an 840 by `70n + 100` canvas, one well-drawn track per sequence in dictionary order, and lists one to four motifs in the legend in order of first appearance |
| Layout.NoMotifsExample | motif-mark-oop.py:190-209 | the example sequence file with an empty motif file draws its track and then fails on the legend |
| Layout.ExampleRun | motif-mark-oop.py:126-178 | one entry `acgtACGTacgt` with the motif `ACGT` gives one track: exon block over `[4, 8)` and three motif blocks over `[0, 4)`, `[4, 8)` and `[8, 12)` |

## Left out

- Command-line parsing and the module-level argument handling (lines 8-17) are not modelled. The file names only select inputs.
- Opening, reading and writing files are not modelled. The parsers take the file's lines as a sequence of strings; a line may still end in its newline, which `strip` removes.
- All cairo calls are not modelled: surface creation, source colors, fonts, `show_text`, `fill`, `stroke` and `write_to_png`. The model records shapes instead, and a color is a palette index.
- The RGB values of the palette are not modelled. They are floating-point fractions, and only their number (four) matters to the behaviour.
- Legend geometry (lines 185-222) is not modelled. It is fixed pixel offsets; the model keeps only the legend's motif list, the palette indexing on line 193, and the failure at line 209 when no motif was listed.
- The output file name (lines 225-226) is not modelled. It is derived from the input path.
- Layout.Run: requires every live motif line to be ASCII letters. Other characters would be regular-expression syntax, which the scan model does not cover.
- Text.Upper: upper-cases ASCII letters only. Python's `str.upper` also maps other letters, for example `ß` to `SS`, which changes lengths.
- Exon.FindExon: `isupper`/`islower` are modelled for ASCII letters only. Non-ASCII cased letters are treated as uncased.
- Text.IsSpace: follows the Unicode whitespace set of Python's `str.isspace`, without checking it against a Unicode database.
- Caption widths are not modelled, because they depend on the font. A caption's horizontal extent is its anchor point.
- Within one track, drawing order matters only for what paints over what: blocks may overlap, and the later one is on top. The model keeps the order in the `marks` list but proves nothing about overlap.

=== FILE: exon.dfy ===
/**
 * `find_exon`: the exon is where the first upper-case character starts and the
 * first lower-case character after it stops. The script leaves `start` or
 * `stop` unbound when a search fails; here those cases are explicit errors.
 */
module Exon {
  import opened Wrappers
  import opened Text

  /** The half-open exon range `[start, stop)` of a sequence. */
  datatype ExonSpan = ExonSpan(start: nat, stop: nat)

  datatype ExonError =
    | NoExon          // no upper-case character at all
    | UnterminatedExon // the upper-case run is never followed by a lower-case character

  /** The first index at or after `from` holding an upper-case character. */
  function FindUpper(s: string, from: nat): (r: Option<nat>)
    ensures r.Some? ==> from <= r.value < |s| && IsUpper(s[r.value])
    ensures r.Some? ==> forall i :: from <= i < r.value ==> !IsUpper(s[i])
    ensures r.None? ==> forall i :: from <= i < |s| ==> !IsUpper(s[i])
    decreases |s| - from
  {
    if from >= |s| then None
    else if IsUpper(s[from]) then Some(from)
    else FindUpper(s, from + 1)
  }

  /** The first index at or after `from` holding a lower-case character. */
  function FindLower(s: string, from: nat): (r: Option<nat>)
    ensures r.Some? ==> from <= r.value < |s| && IsLower(s[r.value])
    ensures r.Some? ==> forall i :: from <= i < r.value ==> !IsLower(s[i])
    ensures r.None? ==> forall i :: from <= i < |s| ==> !IsLower(s[i])
    decreases |s| - from
  {
    if from >= |s| then None
    else if IsLower(s[from]) then Some(from)
    else FindLower(s, from + 1)
  }

  /** There is an upper-case character, and a lower-case one somewhere after the first of them. */
  ghost predicate HasExon(s: string)
  {
    exists i, j :: 0 <= i < j < |s| && IsUpper(s[i]) && IsLower(s[j])
                   && forall k :: 0 <= k < i ==> !IsUpper(s[k])
  }

  /**
   * The exon of `s`: `start` is the first upper-case index, `stop` the first
   * lower-case index after it; nothing in between is lower-case. The search
   * fails with `NoExon` when nothing is upper-case and with `UnterminatedExon`
   * when no lower-case character follows the first upper-case one.
   */
  function FindExon(s: string): (r: Result<ExonSpan, ExonError>)
    ensures r.Success? ==>
      && 0 <= r.value.start < r.value.stop < |s|
      && IsUpper(s[r.value.start])
      && (forall i :: 0 <= i < r.value.start ==> !IsUpper(s[i]))
      && (forall i :: r.value.start <= i < r.value.stop ==> !IsLower(s[i]))
      && IsLower(s[r.value.stop])
    ensures r == Failure(NoExon) <==> forall i :: 0 <= i < |s| ==> !IsUpper(s[i])
    ensures r == Failure(UnterminatedExon) <==>
      (exists i :: 0 <= i < |s| && IsUpper(s[i])) && !HasExon(s)
    ensures r.Success? <==> HasExon(s)
  {
    match FindUpper(s, 0)
    case None => Failure(NoExon)
    case Some(start) =>
      match FindLower(s, start)
      case None =>
        Failure(UnterminatedExon)
      case Some(stop) => Success(ExonSpan(start, stop))
  }

  /** On a sequence of letters only, every character of the exon is upper-case. */
  lemma ExonAllUpper(s: string)
    requires AllLetters(s) && FindExon(s).Success?
    ensures forall i :: FindExon(s).value.start <= i < FindExon(s).value.stop ==> IsUpper(s[i])
  {
  }

  /** An example: the exon of `acgtACGTacgt` is `[4, 8)`. */
  lemma ExonExample(s: string)
    requires s == "acgtACGTacgt"
    ensures FindExon(s) == Success(ExonSpan(4, 8))
  {
    assert !IsUpper(s[0]) && !IsUpper(s[1]) && !IsUpper(s[2]) && !IsUpper(s[3]) && IsUpper(s[4]);
    assert !IsLower(s[4]) && !IsLower(s[5]) && !IsLower(s[6]) && !IsLower(s[7]) && IsLower(s[8]);
  }

  /** A sequence that starts in its exon: `ACGTacgt` has exon `[0, 4)`; the search does not fail. */
  lemma ExonAtStartExample(s: string)
    requires s == "ACGTacgt"
    ensures FindExon(s) == Success(ExonSpan(0, 4))
  {
    assert IsUpper(s[0]);
    assert !IsLower(s[0]) && !IsLower(s[1]) && !IsLower(s[2]) && !IsLower(s[3]) && IsLower(s[4]);
  }

  /** A sequence with no upper-case character has no exon. */
  lemma NoExonExample(s: string)
    requires s == "acgtacgt"
    ensures FindExon(s) == Failure(NoExon)
  {
  }
}

=== FILE: iupac.dfy ===
/**
 * The IUPAC ambiguity expansion of `non_ambig_motifs`: upper-case the motif,
 * then walk the eleven-row code table in order and replace every occurrence
 * of the row's code letter by the row's bracketed class.
 *
 * The reference it is proved against substitutes each symbol of the
 * upper-cased motif independently (`Symbolwise`). The two agree because no
 * class text contains a code letter, so a later row never re-expands an
 * earlier row's output.
 */
module Iupac {
  import opened Text

  /** The ambiguity table, in the dictionary's insertion order. */
  const Table: seq<(char, string)> := [
    ('W', "[A|T]"),
    ('S', "[C|G]"),
    ('M', "[A|C]"),
    ('K', "[G|T]"),
    ('R', "[A|G]"),
    ('Y', "[C|T]"),
    ('B', "[C|G|T]"),
    ('D', "[A|G|T]"),
    ('H', "[A|C|T]"),
    ('V', "[A|C|G]"),
    ('N', "[A|C|G|T]")
  ]

  /** The row of `Table` whose key is `c`, or -1 when `c` is not a code letter. */
  function CodeIndex(c: char): int
  {
    match c
    case 'W' => 0
    case 'S' => 1
    case 'M' => 2
    case 'K' => 3
    case 'R' => 4
    case 'Y' => 5
    case 'B' => 6
    case 'D' => 7
    case 'H' => 8
    case 'V' => 9
    case 'N' => 10
    case _ => -1
  }

  predicate IsCode(c: char) { CodeIndex(c) >= 0 }

  /** `s` contains none of the eleven code letters. */
  predicate NoCodes(s: string) { forall i :: 0 <= i < |s| ==> !IsCode(s[i]) }

  /** A character that may appear in a class text: a base letter or the `|` separator. */
  predicate ClassChar(c: char) { IsUpper(c) || c == '|' }

  /** The shape of every class text: `[`, a non-empty run of class characters, `]`. */
  predicate Bracketed(r: string)
  {
    && |r| >= 3
    && r[0] == '[' && r[|r| - 1] == ']'
    && (forall i :: 1 <= i < |r| - 1 ==> ClassChar(r[i]))
  }

  /** The properties of the table the expansion relies on. */
  ghost predicate WellFormedRow(k: int)
    requires 0 <= k < |Table|
  {
    && CodeIndex(Table[k].0) == k
    && Bracketed(Table[k].1)
    && NoCodes(Table[k].1)
  }

  /** Text made of the four bases and `|` between brackets is bracketed and free of code letters. */
  lemma BaseClassText(r: string)
    requires |r| >= 3 && r[0] == '[' && r[|r| - 1] == ']'
    requires forall i :: 1 <= i < |r| - 1 ==> r[i] in "ACGT|"
    ensures Bracketed(r) && NoCodes(r)
  {
  }

  /** Row `k` is keyed by a code letter whose index is `k`, and its class text is well formed. */
  lemma RowWellFormed(k: int)
    requires 0 <= k < |Table|
    ensures WellFormedRow(k)
  {
    var r := Table[k].1;
    assert forall i :: 1 <= i < |r| - 1 ==> r[i] in "ACGT|" by {
      match k
      case 0 => case 1 => case 2 => case 3 => case 4 => case 5 =>
      case 6 => case 7 => case 8 => case 9 => case 10 =>
    }
    BaseClassText(r);
  }

  /**
   * Every row is keyed by a distinct code letter (its key's index is its
   * position), every class text is bracketed, and no class text contains a
   * code letter; every code letter keys its own row.
   */
  lemma TableWellFormed()
    ensures |Table| == 11
    ensures forall k :: 0 <= k < |Table| ==> WellFormedRow(k)
    ensures forall c :: IsCode(c) ==> CodeIndex(c) < |Table| && Table[CodeIndex(c)].0 == c
  {
    forall k | 0 <= k < |Table|
      ensures WellFormedRow(k)
    {
      RowWellFormed(k);
    }
  }

  /** The class text a code letter stands for. */
  function ClassText(c: char): (r: string)
    requires IsCode(c)
    ensures Bracketed(r) && NoCodes(r) && NoLower(r)
  {
    TableWellFormed();
    assert WellFormedRow(CodeIndex(c));
    Table[CodeIndex(c)].1
  }

  /**
   * Python's `str.replace(c, rep)` for a one-character `c`: every occurrence of
   * `c` is replaced by `rep`, scanning left to right, and the inserted text is
   * not scanned again.
   */
  function Replace(s: string, c: char, rep: string): (r: string)
    ensures c !in rep ==> c !in r
  {
    if s == [] then [] else (if s[0] == c then rep else [s[0]]) + Replace(s[1..], c, rep)
  }

  /** Replacement works piecewise on a concatenation. */
  lemma {:induction false} ReplaceAppend(a: string, b: string, c: char, rep: string)
    ensures Replace(a + b, c, rep) == Replace(a, c, rep) + Replace(b, c, rep)
  {
    if a == [] {
      assert a + b == b;
    } else {
      assert (a + b)[1..] == a[1..] + b;
      ReplaceAppend(a[1..], b, c, rep);
    }
  }

  /** Replacing a character that does not occur changes nothing. */
  lemma {:induction false} ReplaceAbsent(s: string, c: char, rep: string)
    requires c !in s
    ensures Replace(s, c, rep) == s
  {
    if s != [] {
      ReplaceAbsent(s[1..], c, rep);
    }
  }

  /** The state of the table walk: rows `0..k-1` have been applied to `s`. */
  function ApplyRows(s: string, k: nat): string
    requires k <= |Table|
    decreases |Table| - k
  {
    if k == |Table| then s else ApplyRows(Replace(s, Table[k].0, Table[k].1), k + 1)
  }

  /** `non_ambig_motifs`: upper-case, then apply every table row in order. */
  function Expand(motif: string): string
  {
    ApplyRows(Upper(motif), 0)
  }

  /** What one symbol has become once the first `k` rows have been applied. */
  function SymbolAfter(c: char, k: nat): string
  {
    if IsCode(c) && CodeIndex(c) < k then ClassText(c) else [c]
  }

  /** What `u` has become once the first `k` rows have been applied, symbol by symbol. */
  function SymbolwiseAfter(u: string, k: nat): string
  {
    if u == [] then [] else SymbolAfter(u[0], k) + SymbolwiseAfter(u[1..], k)
  }

  /**
   * The reference expansion: every code letter of `u` becomes its class text,
   * every other character stays, and the pieces are joined in input order.
   */
  function Symbolwise(u: string): string
  {
    SymbolwiseAfter(u, |Table|)
  }

  /** The reference expansion of one symbol: its table entry, or the symbol itself. */
  lemma SymbolwiseOne(c: char)
    ensures IsCode(c) ==> Symbolwise([c]) == ClassText(c)
    ensures !IsCode(c) ==> Symbolwise([c]) == [c]
  {
    TableWellFormed();
    assert [c][1..] == [];
    assert Symbolwise([c]) == SymbolAfter(c, |Table|) + SymbolwiseAfter([], |Table|);
  }

  /** The reference expansion works piecewise: the pieces keep the input order. */
  lemma {:induction false} SymbolwiseAppend(a: string, b: string, k: nat)
    ensures SymbolwiseAfter(a + b, k) == SymbolwiseAfter(a, k) + SymbolwiseAfter(b, k)
  {
    if a == [] {
      assert a + b == b;
    } else {
      assert (a + b)[0] == a[0];
      assert (a + b)[1..] == a[1..] + b;
      SymbolwiseAppend(a[1..], b, k);
    }
  }

  /** Before any row is applied, the motif is unchanged. */
  lemma {:induction false} SymbolwiseNone(u: string)
    ensures SymbolwiseAfter(u, 0) == u
  {
    if u != [] {
      SymbolwiseNone(u[1..]);
      assert u == [u[0]] + u[1..];
    }
  }

  /** Applying row `k` to one symbol's current text advances it to `k + 1` rows. */
  lemma StepOne(x: char, k: nat)
    requires k < |Table|
    ensures Replace(SymbolAfter(x, k), Table[k].0, Table[k].1) == SymbolAfter(x, k + 1)
  {
    TableWellFormed();
    assert WellFormedRow(k);
    var code := Table[k].0;
    if IsCode(x) && CodeIndex(x) < k {
      var r := ClassText(x);
      assert code !in r;
      ReplaceAbsent(r, code, Table[k].1);
    } else if CodeIndex(x) == k {
      assert x == code;
      assert [x][1..] == [];
    } else {
      assert x != code;
      assert [x][1..] == [];
    }
  }

  /** Applying row `k` to the symbolwise state advances every symbol to `k + 1` rows. */
  lemma {:induction false} StepAll(u: string, k: nat)
    requires k < |Table|
    ensures Replace(SymbolwiseAfter(u, k), Table[k].0, Table[k].1) == SymbolwiseAfter(u, k + 1)
  {
    if u != [] {
      ReplaceAppend(SymbolAfter(u[0], k), SymbolwiseAfter(u[1..], k), Table[k].0, Table[k].1);
      StepOne(u[0], k);
      StepAll(u[1..], k);
    }
  }

  lemma {:induction false} ApplyRemaining(u: string, k: nat)
    requires k <= |Table|
    ensures ApplyRows(SymbolwiseAfter(u, k), k) == Symbolwise(u)
    decreases |Table| - k
  {
    if k < |Table| {
      StepAll(u, k);
      ApplyRemaining(u, k + 1);
    }
  }

  /**
   * The table walk equals the symbolwise reference: every code letter of the
   * upper-cased motif is replaced by exactly its table entry, every other
   * character passes through, in input order; nothing is expanded twice.
   */
  lemma ExpandIsSymbolwise(motif: string)
    ensures Expand(motif) == Symbolwise(Upper(motif))
  {
    SymbolwiseNone(Upper(motif));
    ApplyRemaining(Upper(motif), 0);
  }

  /** The reference expansion leaves no code letter and adds no lower-case letter. */
  lemma {:induction false} SymbolwiseClean(u: string)
    requires NoLower(u)
    ensures NoCodes(Symbolwise(u)) && NoLower(Symbolwise(u))
  {
    if u != [] {
      SymbolwiseClean(u[1..]);
      var head := SymbolAfter(u[0], |Table|);
      var tail := Symbolwise(u[1..]);
      assert NoCodes(head) && NoLower(head);
      assert forall i :: 0 <= i < |head + tail| ==>
        (head + tail)[i] == if i < |head| then head[i] else tail[i - |head|];
    }
  }

  /** The reference expansion is the identity on a string with no code letters. */
  lemma {:induction false} SymbolwisePlain(u: string)
    requires NoCodes(u)
    ensures Symbolwise(u) == u
  {
    if u != [] {
      SymbolwisePlain(u[1..]);
      assert u == [u[0]] + u[1..];
    }
  }

  /** An expanded motif contains none of the eleven code letters and no lower-case letter. */
  lemma ExpandNoCodes(motif: string)
    ensures NoCodes(Expand(motif))
    ensures NoLower(Expand(motif))
  {
    ExpandIsSymbolwise(motif);
    SymbolwiseClean(Upper(motif));
  }

  /** On a motif without ambiguity codes, expansion is just upper-casing. */
  lemma ExpandPlain(motif: string)
    requires NoCodes(Upper(motif))
    ensures Expand(motif) == Upper(motif)
  {
    ExpandIsSymbolwise(motif);
    SymbolwisePlain(Upper(motif));
  }

  /** Expansion is idempotent: its output has nothing left to upper-case or expand. */
  lemma ExpandIdempotent(motif: string)
    ensures Expand(Expand(motif)) == Expand(motif)
  {
    var e := Expand(motif);
    ExpandNoCodes(motif);
    UpperOfNoLower(e);
    ExpandPlain(e);
  }

  /** The reference expansions of two strings, joined, are the expansion of the joined string. */
  lemma SymbolwiseConcat(a: string, b: string, ra: string, rb: string)
    requires Symbolwise(a) == ra && Symbolwise(b) == rb
    ensures Symbolwise(a + b) == ra + rb
  {
    SymbolwiseAppend(a, b, |Table|);
  }

  /** The reference expansion of `TN`: a plain base, then the four-base class. */
  lemma SymbolwiseExampleTail(u: string)
    requires u == ['T', 'N']
    ensures Symbolwise(u) == "T[A|C|G|T]"
  {
    assert Symbolwise(['N']) == "[A|C|G|T]" by {
      SymbolwiseOne('N');
      assert ClassText('N') == "[A|C|G|T]" by { TableWellFormed(); }
    }
    SymbolwiseOne('T');
    SymbolwiseConcat(['T'], ['N'], "T", "[A|C|G|T]");
    assert u == ['T'] + ['N'];
  }

  /** The reference expansion of `ACGTN`: plain bases pass through, `N` becomes its class. */
  lemma SymbolwiseExample(u: string)
    requires u == ['A', 'C', 'G', 'T', 'N']
    ensures Symbolwise(u) == "ACGT[A|C|G|T]"
  {
    var plain := ['A', 'C', 'G'];
    var tail := ['T', 'N'];
    assert Symbolwise(plain) == "ACG" by {
      assert NoCodes(plain);
      SymbolwisePlain(plain);
    }
    SymbolwiseExampleTail(tail);
    SymbolwiseConcat(plain, tail, "ACG", "T[A|C|G|T]");
    assert u == plain + tail;
  }

  /** An example: `acgtn` becomes `ACGT[A|C|G|T]`. */
  lemma ExpandExample(motif: string)
    requires motif == "acgtn"
    ensures Expand(motif) == "ACGT[A|C|G|T]"
  {
    ExpandIsSymbolwise(motif);
    var u := Upper(motif);
    assert u == ['A', 'C', 'G', 'T', 'N'] by {
      assert |u| == 5;
      assert u[0] == 'A' && u[1] == 'C' && u[2] == 'G' && u[3] == 'T' && u[4] == 'N';
    }
    SymbolwiseExample(u);
  }
}

=== FILE: layout.dfy ===
/**
 * The run of the script as a pure function from the two files' lines to the
 * diagram it draws. One track per FASTA entry, in dictionary order: a gene
 * line as long as the sequence, the header as a caption, a black block over
 * the exon, and for each motif (in dictionary order) a block over each of its
 * occurrences in the upper-cased sequence, painted with the motif's palette
 * entry. Drawing is recorded as shapes; colors are palette indices.
 *
 * All coordinates are integers: `ALIGN/2` is 20, `ALIGN*1.3` is 52 and
 * `IMAGE_HEIGHT/5` is 14, each exact in floating point.
 */
module Layout {
  import opened Wrappers
  import opened Text
  import opened Iupac
  import opened Pattern
  import opened Scanner
  import opened Exon
  import opened OrderedMap
  import opened Parsers

  const Align: int := 40
  const ImageHeight: int := 70
  const FeatureHeight: int := 15
  /** The number of entries of `color_list`. */
  const PaletteSize: nat := 4
  const CanvasWidth: int := 800 + Align

  datatype Paint = Black | Palette(index: nat)

  datatype Shape =
    | Line(x0: int, y0: int, x1: int, y1: int)
    | Rect(x: int, y: int, width: int, height: int, paint: Paint)
    | Caption(cx: int, cy: int, words: string)

  /** What `Gene.draw`, `Exon.draw` and the `Motif.draw` calls put on one track. */
  datatype Track = Track(gene: Shape, caption: Shape, exonBlock: Shape, marks: seq<Shape>)

  /** The canvas size, the tracks in drawing order, and the motif names the legend lists. */
  datatype Diagram = Diagram(width: int, height: int, tracks: seq<Track>, legend: seq<string>)

  datatype RunError =
    | BadFasta(fasta: FastaError)    // a body line before any header
    | BadExon(exon: ExonError)       // `find_exon` left `start` or `stop` unbound
    | ColorOutOfRange(motif: nat)    // `color_list[j]` with `j` past the palette
    | NoMotifs                       // the exon legend reads `y_start`, which only the motif legend loop binds

  /** The height of the gene line of track `i`. */
  function GeneY(i: nat): int { ImageHeight * i + Align * 2 }

  /** The top of the exon and motif blocks of track `i`. */
  function FeatureY(i: nat): int { ImageHeight * i + Align / 2 + Align * 13 / 10 }

  function GeneLine(i: nat, length: nat): Shape
  {
    Line(0 + Align, GeneY(i), length + Align, GeneY(i))
  }

  function GeneLabel(i: nat, header: string): Shape
  {
    Caption(ImageHeight / 5, GeneY(i) - Align / 2, header)
  }

  /** The block over `[start, stop)` on track `i`. */
  function Block(i: nat, start: int, stop: int, paint: Paint): Shape
  {
    Rect(start + Align, FeatureY(i), stop - start, FeatureHeight, paint)
  }

  /** The blocks for the occurrences of motifs `j..` in the upper-cased sequence `text`. */
  function MotifMarks(i: nat, text: string, pats: seq<Classes>, j: nat): Result<seq<Shape>, RunError>
    decreases |pats| - j
  {
    if j >= |pats| then Success([])
    else
      var occ := Occurrences(pats[j], text);
      if occ != [] && j >= PaletteSize then Failure(ColorOutOfRange(j))
      else
        match MotifMarks(i, text, pats, j + 1)
        case Failure(e) => Failure(e)
        case Success(rest) =>
          Success(seq(|occ|, k requires 0 <= k < |occ| => Block(i, occ[k].start, occ[k].stop, Palette(j))) + rest)
  }

  /** Track `i` for the entry `header`/`bases`. */
  function DrawTrack(i: nat, header: string, bases: string, pats: seq<Classes>): Result<Track, RunError>
  {
    match FindExon(bases)
    case Failure(e) => Failure(BadExon(e))
    case Success(span) =>
      match MotifMarks(i, Upper(bases), pats, 0)
      case Failure(e) => Failure(e)
      case Success(marks) =>
        Success(Track(GeneLine(i, |bases|), GeneLabel(i, header), Block(i, span.start, span.stop, Black), marks))
  }

  /** The tracks of entries `i..`, stopping at the first failure. */
  function DrawTracks(entries: seq<(string, string)>, i: nat, pats: seq<Classes>): (r: Result<seq<Track>, RunError>)
    ensures r.Success? ==> |r.value| == |entries| - i || (i >= |entries| && r.value == [])
    ensures r.Success? ==> forall k :: i <= k < |entries| ==>
      DrawTrack(k, entries[k].0, entries[k].1, pats) == Success(r.value[k - i])
    decreases |entries| - i
  {
    if i >= |entries| then Success([])
    else
      match DrawTrack(i, entries[i].0, entries[i].1, pats)
      case Failure(e) => Failure(e)
      case Success(t) =>
        match DrawTracks(entries, i + 1, pats)
        case Failure(e) => Failure(e)
        case Success(ts) => Success([t] + ts)
  }

  /** Every live motif line is made of letters, so no regular-expression syntax beyond classes arises. */
  ghost predicate MotifLinesInAlphabet(motifLines: seq<string>)
  {
    forall i :: 0 <= i < |Live(motifLines)| ==> AllLetters(Live(motifLines)[i])
  }

  /** A motif key comes from a live line, so it is made of letters. */
  lemma MotifKeyInAlphabet(motifLines: seq<string>, j: nat)
    requires MotifLinesInAlphabet(motifLines)
    requires j < |ParseMotifs(motifLines)|
    ensures AllLetters(ParseMotifs(motifLines)[j].0)
  {
    var d := ParseMotifs(motifLines);
    var live := Live(motifLines);
    ParseMotifsSpec(motifLines);
    assert Keys(d)[j] == d[j].0;
    assert d[j].0 in live;
    var i :| 0 <= i < |live| && live[i] == d[j].0;
  }

  /** Each motif's expansion compiles to the classes of the motif. */
  lemma MotifsCompile(motifLines: seq<string>)
    requires MotifLinesInAlphabet(motifLines)
    ensures var d := ParseMotifs(motifLines);
      forall j :: 0 <= j < |d| ==> Compile(d[j].1) == Some(MotifClasses(d[j].0))
  {
    var d := ParseMotifs(motifLines);
    ParseMotifsSpec(motifLines);
    forall j | 0 <= j < |d|
      ensures Compile(d[j].1) == Some(MotifClasses(d[j].0))
    {
      MotifKeyInAlphabet(motifLines, j);
      CompileExpand(d[j].0);
    }
  }

  /** The compiled motif patterns, in dictionary order. */
  function MotifPatterns(motifLines: seq<string>): (pats: seq<Classes>)
    requires MotifLinesInAlphabet(motifLines)
    ensures |pats| == |ParseMotifs(motifLines)|
    ensures forall j :: 0 <= j < |pats| ==>
      pats[j] == MotifClasses(ParseMotifs(motifLines)[j].0) && ParseMotifs(motifLines)[j].0 != []
  {
    var d := ParseMotifs(motifLines);
    MotifsCompile(motifLines);
    ParseMotifsSpec(motifLines);
    seq(|d|, j requires 0 <= j < |d| => Compile(d[j].1).value)
  }

  /**
   * The whole script: read the motifs, read the FASTA entries, size the
   * canvas, draw every track, then the legend. The legend indexes the palette
   * with every motif's position, so more motifs than colors always fail; and
   * its exon key is placed at `y_start`, which only the motif loop assigns, so
   * a run with no motifs fails too.
   */
  function Run(fastaLines: seq<string>, motifLines: seq<string>): Result<Diagram, RunError>
    requires MotifLinesInAlphabet(motifLines)
  {
    var motifs := ParseMotifs(motifLines);
    match ParseFasta(fastaLines)
    case Failure(e) => Failure(BadFasta(e))
    case Success(entries) =>
      var height := ImageHeight * |entries| + 100;
      match DrawTracks(entries, 0, MotifPatterns(motifLines))
      case Failure(e) => Failure(e)
      case Success(tracks) =>
        if |motifs| > PaletteSize then Failure(ColorOutOfRange(PaletteSize))
        else if |motifs| == 0 then Failure(NoMotifs)
        else Success(Diagram(CanvasWidth, height, tracks, Keys(motifs)))
  }

  // ---------------------------------------------------------------- properties

  /** `s` is the block drawn on track `i` for an occurrence of motif `m` in `text`. */
  ghost predicate MarkOf(i: nat, text: string, pats: seq<Classes>, m: nat, s: Shape)
    requires m < |pats|
  {
    exists o :: o in Occurrences(pats[m], text) && s == Block(i, o.start, o.stop, Palette(m))
  }

  /** With no more motifs than colors, drawing the motif blocks never fails. */
  lemma {:induction false} MarksSucceed(i: nat, text: string, pats: seq<Classes>, j: nat)
    requires |pats| <= PaletteSize
    ensures MotifMarks(i, text, pats, j).Success?
    decreases |pats| - j
  {
    if j < |pats| {
      MarksSucceed(i, text, pats, j + 1);
    }
  }

  /** Drawing the motif blocks fails exactly when a motif past the palette occurs in the text. */
  lemma {:induction false} MarksFail(i: nat, text: string, pats: seq<Classes>, j: nat)
    ensures MotifMarks(i, text, pats, j).Failure? <==>
      exists m :: j <= m < |pats| && m >= PaletteSize && Occurrences(pats[m], text) != []
    decreases |pats| - j
  {
    if j < |pats| {
      MarksFail(i, text, pats, j + 1);
      if Occurrences(pats[j], text) != [] && j >= PaletteSize {
        assert j <= j < |pats| && j >= PaletteSize && Occurrences(pats[j], text) != [];
      }
    }
  }

  /**
   * The motif blocks are exactly the occurrences: every block drawn belongs to
   * an occurrence of some motif painted with that motif's color, and every
   * occurrence of every motif gets its block.
   */
  lemma {:induction false} MarksExact(i: nat, text: string, pats: seq<Classes>, j: nat)
    requires MotifMarks(i, text, pats, j).Success?
    ensures var ms := MotifMarks(i, text, pats, j).value;
      && (forall s :: s in ms ==> exists m :: j <= m < |pats| && m < PaletteSize && MarkOf(i, text, pats, m, s))
      && (forall m, o :: j <= m < |pats| && o in Occurrences(pats[m], text) ==> Block(i, o.start, o.stop, Palette(m)) in ms)
    decreases |pats| - j
  {
    if j < |pats| {
      MarksExact(i, text, pats, j + 1);
      var occ := Occurrences(pats[j], text);
      var rest := MotifMarks(i, text, pats, j + 1).value;
      var here := seq(|occ|, k requires 0 <= k < |occ| => Block(i, occ[k].start, occ[k].stop, Palette(j)));
      var ms := MotifMarks(i, text, pats, j).value;
      assert ms == here + rest;
      forall s | s in ms
        ensures exists m :: j <= m < |pats| && m < PaletteSize && MarkOf(i, text, pats, m, s)
      {
        if s in here {
          var k :| 0 <= k < |occ| && here[k] == s;
          assert occ[k] in occ;
          assert j < PaletteSize;
          assert MarkOf(i, text, pats, j, s);
        } else {
          assert s in rest;
        }
      }
      forall m, o | j <= m < |pats| && o in Occurrences(pats[m], text)
        ensures Block(i, o.start, o.stop, Palette(m)) in ms
      {
        if m == j {
          var k :| 0 <= k < |occ| && occ[k] == o;
          assert here[k] == Block(i, o.start, o.stop, Palette(m));
        } else {
          assert Block(i, o.start, o.stop, Palette(m)) in rest;
        }
      }
    }
  }

  /**
   * Drawing the tracks fails only where an exon is missing or a color is out
   * of range; with no more motifs than colors, it succeeds exactly when every
   * sequence has an exon.
   */
  lemma {:induction false} TracksOutcome(entries: seq<(string, string)>, i: nat, pats: seq<Classes>)
    ensures DrawTracks(entries, i, pats).Success? ==>
      forall k :: i <= k < |entries| ==> FindExon(entries[k].1).Success?
    ensures |pats| <= PaletteSize ==>
      (DrawTracks(entries, i, pats).Success? <==> forall k :: i <= k < |entries| ==> FindExon(entries[k].1).Success?)
    decreases |entries| - i
  {
    if i < |entries| {
      var r := DrawTracks(entries, i, pats);
      var rest := DrawTracks(entries, i + 1, pats);
      var t := DrawTrack(i, entries[i].0, entries[i].1, pats);
      assert r.Success? <==> t.Success? && rest.Success?;
      TracksOutcome(entries, i + 1, pats);
      TrackOutcome(i, entries[i].0, entries[i].1, pats);
      if r.Success? {
        forall k | i <= k < |entries|
          ensures FindExon(entries[k].1).Success?
        {
        }
      }
      if |pats| <= PaletteSize && forall k :: i <= k < |entries| ==> FindExon(entries[k].1).Success? {
        assert FindExon(entries[i].1).Success?;
      }
    }
  }

  /**
   * One track fails when its sequence has no exon; with no more motifs than
   * colors, that is the only way it fails.
   */
  lemma TrackOutcome(i: nat, header: string, bases: string, pats: seq<Classes>)
    ensures DrawTrack(i, header, bases, pats).Success? ==> FindExon(bases).Success?
    ensures |pats| <= PaletteSize ==> (DrawTrack(i, header, bases, pats).Success? <==> FindExon(bases).Success?)
  {
    if |pats| <= PaletteSize {
      MarksSucceed(i, Upper(bases), pats, 0);
    }
  }

  // ---------------------------------------------------------------- geometry

  function Top(s: Shape): int
  {
    match s
    case Line(_, y0, _, y1) => if y0 < y1 then y0 else y1
    case Rect(_, y, _, _, _) => y
    case Caption(_, cy, _) => cy
  }

  function Bottom(s: Shape): int
  {
    match s
    case Line(_, y0, _, y1) => if y0 < y1 then y1 else y0
    case Rect(_, y, _, h, _) => y + h
    case Caption(_, cy, _) => cy
  }

  function Left(s: Shape): int
  {
    match s
    case Line(x0, _, x1, _) => if x0 < x1 then x0 else x1
    case Rect(x, _, _, _, _) => x
    case Caption(cx, _, _) => cx
  }

  /** The right edge; a caption is measured at its anchor, since its width depends on the font. */
  function Right(s: Shape): int
  {
    match s
    case Line(x0, _, x1, _) => if x0 < x1 then x1 else x0
    case Rect(x, _, w, _, _) => x + w
    case Caption(cx, _, _) => cx
  }

  function Shapes(t: Track): seq<Shape>
  {
    [t.gene, t.caption, t.exonBlock] + t.marks
  }

  /** Track `k` owns the horizontal band `[70k + 40, 70k + 110)` of the canvas. */
  predicate InBand(s: Shape, k: nat)
  {
    ImageHeight * k + Align <= Top(s) && Bottom(s) < ImageHeight * (k + 1) + Align
  }

  /**
   * A block of positive width in the feature row of track `k`, horizontally
   * within the gene line, which is `len` long.
   */
  predicate OnGene(s: Shape, k: nat, len: nat)
  {
    && s.Rect?
    && Align <= s.x && s.x + s.width <= Align + len && 0 < s.width
    && s.y == FeatureY(k) && s.height == FeatureHeight
  }

  /**
   * What track `k` shows for the entry `header`/`bases` given the motif
   * dictionary `motifs`: a gene line as long as the sequence, the header to its
   * upper left, a black block over exactly the exon, and exactly one block per
   * occurrence the scan reports for each motif (every occurrence has its block,
   * every block is an occurrence's, and there are as many blocks as
   * occurrences), as wide as the motif and in the motif's color;
   * everything stays inside the track's band, and fits the canvas width exactly
   * when the sequence has at most 800 bases.
   */
  ghost predicate WellDrawn(t: Track, k: nat, header: string, bases: string, motifs: seq<(string, string)>)
  {
    FrameDrawn(t, k, header, bases) && MarksDrawn(t, k, bases, motifs) && Placed(t, k, bases)
  }

  /** The gene line, the header caption and the black block over exactly the exon. */
  ghost predicate FrameDrawn(t: Track, k: nat, header: string, bases: string)
  {
    && t.gene.Line? && t.gene.x0 == Align && t.gene.x1 == Align + |bases| && t.gene.y0 == t.gene.y1 == GeneY(k)
    && t.caption.Caption? && t.caption.words == header && t.caption.cx < Align && t.caption.cy < GeneY(k)
    && FindExon(bases).Success?
    && OnGene(t.exonBlock, k, |bases|) && t.exonBlock.paint == Black
    && t.exonBlock.x - Align == FindExon(bases).value.start
    && t.exonBlock.x - Align + t.exonBlock.width == FindExon(bases).value.stop
  }

  /** One block per occurrence the scan reports for each motif in the upper-cased sequence. */
  ghost predicate MarksDrawn(t: Track, k: nat, bases: string, motifs: seq<(string, string)>)
  {
    var text := Upper(bases);
    && (forall s :: s in t.marks ==> OnGene(s, k, |bases|) && exists j :: MotifMark(s, k, j, motifs, text))
    && |t.marks| == OccurrenceTotal(ClassesOfMotifs(motifs), text, 0)
    && (forall j, o :: 0 <= j < |motifs| && o in Occurrences(MotifClasses(motifs[j].0), text) ==>
          Block(k, o.start, o.stop, Palette(j)) in t.marks)
  }

  /** Every shape inside the track's band, and within the canvas width exactly when the sequence fits. */
  ghost predicate Placed(t: Track, k: nat, bases: string)
  {
    && (forall s :: s in Shapes(t) ==> InBand(s, k) && 0 <= Left(s))
    && ((forall s :: s in Shapes(t) ==> Right(s) <= CanvasWidth) <==> |bases| <= 800)
  }

  /** The motif patterns handed to the drawing are the classes of the dictionary's motifs. */
  ghost predicate PatternsOf(pats: seq<Classes>, motifs: seq<(string, string)>)
  {
    && |pats| == |motifs|
    && forall j :: 0 <= j < |motifs| ==> pats[j] == MotifClasses(motifs[j].0) && motifs[j].0 != []
  }

  /**
   * `s` is the block on track `k` over an occurrence the scan reports for
   * motif `j` in `text`: painted in motif `j`'s color and as wide as the motif.
   */
  ghost predicate MotifMark(s: Shape, k: nat, j: int, motifs: seq<(string, string)>, text: string)
  {
    && 0 <= j < |motifs| && j < PaletteSize
    && s.Rect? && s.paint == Palette(j) && s.width == |motifs[j].0|
    && exists o :: o in Occurrences(MotifClasses(motifs[j].0), text) && s == Block(k, o.start, o.stop, Palette(j))
  }

  /** The per-position classes of each motif of the dictionary, in order. */
  function ClassesOfMotifs(motifs: seq<(string, string)>): (pats: seq<Classes>)
    ensures |pats| == |motifs|
    ensures forall j :: 0 <= j < |motifs| ==> pats[j] == MotifClasses(motifs[j].0)
  {
    seq(|motifs|, j requires 0 <= j < |motifs| => MotifClasses(motifs[j].0))
  }

  /** The number of occurrences of the patterns `j..` in `text`, all motifs together. */
  function OccurrenceTotal(pats: seq<Classes>, text: string, j: nat): nat
    decreases |pats| - j
  {
    if j >= |pats| then 0 else |Occurrences(pats[j], text)| + OccurrenceTotal(pats, text, j + 1)
  }

  /** A track gets one motif block per occurrence: as many blocks as occurrences of all its motifs. */
  lemma {:induction false} MarksCount(i: nat, text: string, pats: seq<Classes>, j: nat)
    requires MotifMarks(i, text, pats, j).Success?
    ensures |MotifMarks(i, text, pats, j).value| == OccurrenceTotal(pats, text, j)
    decreases |pats| - j
  {
    if j < |pats| {
      MarksCount(i, text, pats, j + 1);
    }
  }

  /** The block for one occurrence lies over the gene line and records the occurrence. */
  lemma MarkPlaced(k: nat, bases: string, pats: seq<Classes>, motifs: seq<(string, string)>, m: nat, o: Span)
    requires PatternsOf(pats, motifs)
    requires m < |pats| && m < PaletteSize && o in Occurrences(pats[m], Upper(bases))
    ensures OnGene(Block(k, o.start, o.stop, Palette(m)), k, |bases|)
    ensures MotifMark(Block(k, o.start, o.stop, Palette(m)), k, m, motifs, Upper(bases))
  {
    var text := Upper(bases);
    OccurrenceMatches(pats[m], text, o);
    assert pats[m] == MotifClasses(motifs[m].0) && motifs[m].0 != [];
    assert |text| == |bases|;
  }

  /** The motif blocks of a drawn track lie over its gene line, each recording an occurrence of a motif. */
  lemma MarksPlaced(k: nat, header: string, bases: string, pats: seq<Classes>, motifs: seq<(string, string)>)
    requires PatternsOf(pats, motifs)
    requires DrawTrack(k, header, bases, pats).Success?
    ensures var t := DrawTrack(k, header, bases, pats).value;
      forall s :: s in t.marks ==> OnGene(s, k, |bases|) && exists j :: MotifMark(s, k, j, motifs, Upper(bases))
  {
    var t := DrawTrack(k, header, bases, pats).value;
    var text := Upper(bases);
    MarksExact(k, text, pats, 0);
    forall s | s in t.marks
      ensures OnGene(s, k, |bases|) && exists j :: MotifMark(s, k, j, motifs, text)
    {
      var m :| 0 <= m < |pats| && m < PaletteSize && MarkOf(k, text, pats, m, s);
      var o :| o in Occurrences(pats[m], text) && s == Block(k, o.start, o.stop, Palette(m));
      MarkPlaced(k, bases, pats, motifs, m, o);
    }
  }

  /**
   * A block in the feature row straddles the gene line vertically, stays in
   * the track's band, and stays within the line's horizontal extent.
   */
  lemma OnGeneInBand(s: Shape, k: nat, len: nat)
    requires OnGene(s, k, len)
    ensures Top(s) < GeneY(k) < Bottom(s)
    ensures InBand(s, k) && 0 <= Left(s) && Right(s) <= Align + len
  {
  }

  /** The motif blocks of a drawn track are exactly one per reported occurrence. */
  lemma TrackMarksDrawn(k: nat, header: string, bases: string, pats: seq<Classes>, motifs: seq<(string, string)>)
    requires PatternsOf(pats, motifs)
    requires DrawTrack(k, header, bases, pats).Success?
    ensures MarksDrawn(DrawTrack(k, header, bases, pats).value, k, bases, motifs)
  {
    var t := DrawTrack(k, header, bases, pats).value;
    var text := Upper(bases);
    assert t.marks == MotifMarks(k, text, pats, 0).value;
    assert pats == ClassesOfMotifs(motifs);
    MarksExact(k, text, pats, 0);
    MarksCount(k, text, pats, 0);
    MarksPlaced(k, header, bases, pats, motifs);
  }

  /** A track whose frame is drawn and whose blocks lie over the gene line stays in its band. */
  lemma TrackPlaced(t: Track, k: nat, header: string, bases: string)
    requires FrameDrawn(t, k, header, bases)
    requires t.gene == GeneLine(k, |bases|) && t.caption == GeneLabel(k, header)
    requires forall s :: s in t.marks ==> OnGene(s, k, |bases|)
    ensures Placed(t, k, bases)
  {
    OnGeneInBand(t.exonBlock, k, |bases|);
    forall s | s in Shapes(t)
      ensures InBand(s, k) && 0 <= Left(s) && Right(s) <= Align + |bases|
    {
      if s in t.marks {
        OnGeneInBand(s, k, |bases|);
      } else {
        assert s == t.gene || s == t.caption || s == t.exonBlock;
      }
    }
    assert t.gene in Shapes(t);
  }

  /** Every track drawn is well drawn. */
  lemma DrawTrackSpec(k: nat, header: string, bases: string, pats: seq<Classes>, motifs: seq<(string, string)>)
    requires PatternsOf(pats, motifs)
    requires DrawTrack(k, header, bases, pats).Success?
    ensures WellDrawn(DrawTrack(k, header, bases, pats).value, k, header, bases, motifs)
  {
    var t := DrawTrack(k, header, bases, pats).value;
    var span := FindExon(bases).value;
    assert t == Track(GeneLine(k, |bases|), GeneLabel(k, header), Block(k, span.start, span.stop, Black), t.marks);
    assert FrameDrawn(t, k, header, bases);
    TrackMarksDrawn(k, header, bases, pats, motifs);
    TrackPlaced(t, k, header, bases);
  }

  /** Bands of different tracks do not overlap: track `k` is drawn wholly above track `k + 1`. */
  lemma BandsDisjoint(s: Shape, k: nat, s': Shape, k': nat)
    requires InBand(s, k) && InBand(s', k') && k < k'
    ensures Bottom(s) < Top(s')
  {
  }

  /** Every band of the `n` tracks lies inside a canvas of height `70n + 100`. */
  lemma BandInCanvas(s: Shape, k: nat, n: nat)
    requires InBand(s, k) && k < n
    ensures 0 <= Top(s) && Bottom(s) < ImageHeight * n + 100
  {
  }

  lemma PatternsOfMotifs(motifLines: seq<string>)
    requires MotifLinesInAlphabet(motifLines)
    ensures PatternsOf(MotifPatterns(motifLines), ParseMotifs(motifLines))
  {
    MotifsCompile(motifLines);
    ParseMotifsSpec(motifLines);
  }

  /**
   * The run succeeds exactly when the FASTA file starts with a header, every
   * sequence has an exon, and there are one to four motifs. A missing header
   * is reported first; with few enough motifs a missing exon is reported
   * next; with every exon present, too many motifs fail on a color and no
   * motifs fail with NoMotifs.
   */
  lemma RunOutcome(fastaLines: seq<string>, motifLines: seq<string>)
    requires MotifLinesInAlphabet(motifLines)
    ensures var fasta := ParseFasta(fastaLines);
      Run(fastaLines, motifLines).Success? <==>
        && fasta.Success?
        && (forall k :: 0 <= k < |fasta.value| ==> FindExon(fasta.value[k].1).Success?)
        && 1 <= |ParseMotifs(motifLines)| <= PaletteSize
    ensures ParseFasta(fastaLines).Failure? ==>
      Run(fastaLines, motifLines) == Failure(BadFasta(MissingHeader))
    ensures var fasta := ParseFasta(fastaLines);
      fasta.Success? && |ParseMotifs(motifLines)| <= PaletteSize
        && (exists k :: 0 <= k < |fasta.value| && FindExon(fasta.value[k].1).Failure?) ==>
        Run(fastaLines, motifLines).Failure? && Run(fastaLines, motifLines).error.BadExon?
    ensures var fasta := ParseFasta(fastaLines);
      fasta.Success? && |ParseMotifs(motifLines)| > PaletteSize
        && (forall k :: 0 <= k < |fasta.value| ==> FindExon(fasta.value[k].1).Success?) ==>
        Run(fastaLines, motifLines).Failure? && Run(fastaLines, motifLines).error.ColorOutOfRange?
    ensures var fasta := ParseFasta(fastaLines);
      fasta.Success? && |ParseMotifs(motifLines)| == 0
        && (forall k :: 0 <= k < |fasta.value| ==> FindExon(fasta.value[k].1).Success?) ==>
        Run(fastaLines, motifLines) == Failure(NoMotifs)
  {
    var fasta := ParseFasta(fastaLines);
    if fasta.Success? {
      var pats := MotifPatterns(motifLines);
      TracksOutcome(fasta.value, 0, pats);
      var drawn := DrawTracks(fasta.value, 0, pats);
      if drawn.Failure? {
        TracksErrors(fasta.value, 0, pats);
      }
    } else {
      assert fasta.error == MissingHeader;
    }
  }

  /** Drawing tracks reports a missing exon or a color out of range, and nothing else. */
  lemma {:induction false} TracksErrors(entries: seq<(string, string)>, i: nat, pats: seq<Classes>)
    ensures DrawTracks(entries, i, pats).Failure? ==>
      DrawTracks(entries, i, pats).error.BadExon? || DrawTracks(entries, i, pats).error.ColorOutOfRange?
    ensures DrawTracks(entries, i, pats).Failure? && (forall k :: i <= k < |entries| ==> FindExon(entries[k].1).Success?) ==>
      DrawTracks(entries, i, pats).error.ColorOutOfRange?
    ensures DrawTracks(entries, i, pats).Failure? && |pats| <= PaletteSize ==>
      DrawTracks(entries, i, pats).error.BadExon?
    decreases |entries| - i
  {
    if i < |entries| {
      TracksErrors(entries, i + 1, pats);
      MarksErrors(i, Upper(entries[i].1), pats, 0);
      if |pats| <= PaletteSize {
        MarksSucceed(i, Upper(entries[i].1), pats, 0);
      }
    }
  }

  /** Drawing motif blocks can only fail on a color. */
  lemma {:induction false} MarksErrors(i: nat, text: string, pats: seq<Classes>, j: nat)
    ensures MotifMarks(i, text, pats, j).Failure? ==> MotifMarks(i, text, pats, j).error.ColorOutOfRange?
    decreases |pats| - j
  {
    if j < |pats| {
      MarksErrors(i, text, pats, j + 1);
    }
  }

  /**
   * A successful run draws on an 840-wide canvas tall enough for one 70-high
   * band per sequence, draws every sequence well in dictionary order, and
   * lists the motifs in the legend in order of first appearance.
   */
  lemma RunLayout(fastaLines: seq<string>, motifLines: seq<string>)
    requires MotifLinesInAlphabet(motifLines)
    requires Run(fastaLines, motifLines).Success?
    ensures var d := Run(fastaLines, motifLines).value;
      var entries := ParseFasta(fastaLines).value;
      var motifs := ParseMotifs(motifLines);
      && d.width == CanvasWidth && d.height == ImageHeight * |entries| + 100
      && |d.tracks| == |entries|
      && (forall k :: 0 <= k < |entries| ==> WellDrawn(d.tracks[k], k, entries[k].0, entries[k].1, motifs))
      && d.legend == Keys(motifs) && OrderedBy(d.legend, Live(motifLines)) && 1 <= |d.legend| <= PaletteSize
  {
    var d := Run(fastaLines, motifLines).value;
    var entries := ParseFasta(fastaLines).value;
    var motifs := ParseMotifs(motifLines);
    var pats := MotifPatterns(motifLines);
    PatternsOfMotifs(motifLines);
    ParseMotifsSpec(motifLines);
    forall k | 0 <= k < |entries|
      ensures WellDrawn(d.tracks[k], k, entries[k].0, entries[k].1, motifs)
    {
      DrawTrackSpec(k, entries[k].0, entries[k].1, pats, motifs);
    }
  }

  // ---------------------------------------------------------------- example
  //
  // The example lemmas here and in the other modules take their input as a
  // parameter pinned by `requires x == <literal>` instead of writing the
  // literal into the `ensures`: with a literal argument the verifier unfolds
  // the recursive functions on it eagerly, which costs far more than going
  // through the general lemmas the examples call.

  /** The example sequence file holds no surrounding white space and no blank line. */
  lemma ExampleFastaLive(lines: seq<string>)
    requires lines == [">geneA", "acgtACGTacgt"]
    ensures Live(lines) == lines
  {
    StripUnspaced(lines[0]);
    StripUnspaced(lines[1]);
    assert lines[1..][1..] == [];
  }

  /** The example motif file holds no surrounding white space and no blank line. */
  lemma ExampleMotifLive(lines: seq<string>)
    requires lines == ["ACGT"]
    ensures Live(lines) == lines
  {
    StripUnspaced(lines[0]);
    assert lines[1..] == [];
  }

  /** The example sequence file: one entry, read as written. */
  lemma ExampleFasta(lines: seq<string>)
    requires lines == [">geneA", "acgtACGTacgt"]
    ensures ParseFasta(lines) == Success([(">geneA", "acgtACGTacgt")])
  {
    ExampleFastaLive(lines);
    var d0: seq<(string, string)> := [(">geneA", "")];
    assert Put([], ">geneA", "") == d0;
    ReadHeaderLine(lines, [], None);
    assert lines[1..] == ["acgtACGTacgt"];
    ReadBodyLine(lines[1..], d0, ">geneA");
    assert Get(d0, ">geneA").value + "acgtACGTacgt" == "acgtACGTacgt";
    assert Put(d0, ">geneA", "acgtACGTacgt") == [(">geneA", "acgtACGTacgt")];
  }

  /** The example motif has no code letters and is already upper case, so it expands to itself. */
  lemma ExampleExpand(motif: string)
    requires motif == "ACGT"
    ensures Expand(motif) == motif
  {
    assert NoLower(motif);
    UpperOfNoLower(motif);
    assert NoCodes(motif);
    ExpandPlain(motif);
  }

  /** A motif file with one live line yields a one-entry dictionary. */
  lemma OneMotif(lines: seq<string>, motif: string)
    requires Live(lines) == [motif]
    ensures ParseMotifs(lines) == [(motif, Expand(motif))]
  {
    var ps := MotifPairs([motif]);
    assert ps == [(motif, Expand(motif))];
    assert PutAll([], ps) == PutAll(ps, ps[1..]);
    assert ps[1..] == [];
  }

  /** A motif file whose only live line is `ACGT` maps that motif to itself. */
  lemma PlainMotifFile(lines: seq<string>)
    requires Live(lines) == ["ACGT"]
    ensures MotifLinesInAlphabet(lines)
    ensures ParseMotifs(lines) == [("ACGT", "ACGT")]
  {
    assert MotifLinesInAlphabet(lines) by {
      OneLineInAlphabet(lines, "ACGT");
    }
    assert ParseMotifs(lines) == [("ACGT", "ACGT")] by {
      OneMotif(lines, "ACGT");
      ExampleExpand("ACGT");
    }
  }

  /** A motif file whose only live line is made of letters is in the alphabet `Run` accepts. */
  lemma OneLineInAlphabet(lines: seq<string>, motif: string)
    requires Live(lines) == [motif] && AllLetters(motif)
    ensures MotifLinesInAlphabet(lines)
  {
  }

  /** The example motif file: one plain motif, mapped to itself. */
  lemma ExampleMotifs(lines: seq<string>)
    requires lines == ["ACGT"]
    ensures MotifLinesInAlphabet(lines)
    ensures ParseMotifs(lines) == [("ACGT", "ACGT")]
  {
    ExampleMotifLive(lines);
    PlainMotifFile(lines);
  }

  /** The classes of `ACGT`: one base per position. */
  lemma ExampleClasses(motif: string)
    requires motif == "ACGT"
    ensures MotifClasses(motif) == [{'A'}, {'C'}, {'G'}, {'T'}]
  {
    assert NoLower(motif);
    UpperOfNoLower(motif);
    var c := ClassesOf(motif);
    assert !IsCode('A') && !IsCode('C') && !IsCode('G') && !IsCode('T');
    assert c[0] == {'A'} && c[1] == {'C'} && c[2] == {'G'} && c[3] == {'T'};
  }

  /** The example motif compiles to one base per position. */
  lemma ExamplePatterns(lines: seq<string>)
    requires lines == ["ACGT"]
    ensures MotifLinesInAlphabet(lines)
    ensures MotifPatterns(lines) == [[{'A'}, {'C'}, {'G'}, {'T'}]]
  {
    ExampleMotifs(lines);
    MotifsCompile(lines);
    ExampleClasses("ACGT");
    var pats := MotifPatterns(lines);
    assert Some(pats[0]) == Compile("ACGT");
  }

  /** `ACGT` occurs three times, back to back, in `ACGTACGTACGT`. */
  lemma ExampleScan(p: Classes, text: string)
    requires p == [{'A'}, {'C'}, {'G'}, {'T'}] && text == "ACGTACGTACGT"
    ensures Occurrences(p, text) == [Span(0, 4), Span(4, 8), Span(8, 12)]
  {
    assert MatchesAt(p, text, 0);
    assert MatchesAt(p, text, 4);
    assert MatchesAt(p, text, 8);
    GreedyIsScan(p, text, 0, [Span(0, 4), Span(4, 8), Span(8, 12)]);
  }

  /** The example sequence upper-cased: the scan sees `ACGT` three times. */
  lemma ExampleUpper(s: string)
    requires s == "acgtACGTacgt"
    ensures Upper(s) == "ACGTACGTACGT"
  {
  }

  /** The motif blocks of the example track: one per occurrence, in the first color. */
  lemma ExampleMarks(pats: seq<Classes>, text: string)
    requires pats == [[{'A'}, {'C'}, {'G'}, {'T'}]] && text == "ACGTACGTACGT"
    ensures MotifMarks(0, text, pats, 0) ==
      Success([Rect(40, 72, 4, 15, Palette(0)), Rect(44, 72, 4, 15, Palette(0)), Rect(48, 72, 4, 15, Palette(0))])
  {
    ExampleScan(pats[0], text);
    var occ := Occurrences(pats[0], text);
    assert MotifMarks(0, text, pats, 1) == Success([]);
    var here := seq(|occ|, k requires 0 <= k < |occ| => Block(0, occ[k].start, occ[k].stop, Palette(0)));
    assert FeatureY(0) == 72;
    assert here == [Rect(40, 72, 4, 15, Palette(0)), Rect(44, 72, 4, 15, Palette(0)), Rect(48, 72, 4, 15, Palette(0))];
    assert here + [] == here;
  }

  /** The example track: gene line, caption, exon block over `[4, 8)`, and the motif blocks. */
  lemma ExampleTrack(pats: seq<Classes>)
    requires pats == [[{'A'}, {'C'}, {'G'}, {'T'}]]
    ensures DrawTrack(0, ">geneA", "acgtACGTacgt", pats) == Success(
      Track(Line(40, 80, 52, 80), Caption(14, 60, ">geneA"), Rect(44, 72, 4, 15, Black),
             [Rect(40, 72, 4, 15, Palette(0)), Rect(44, 72, 4, 15, Palette(0)), Rect(48, 72, 4, 15, Palette(0))]))
  {
    var bases := "acgtACGTacgt";
    ExonExample(bases);
    ExampleUpper(bases);
    ExampleMarks(pats, Upper(bases));
    DrawTrackSucceeds(0, ">geneA", bases, pats);
    assert GeneLine(0, |bases|) == Line(40, 80, 52, 80);
    assert GeneLabel(0, ">geneA") == Caption(14, 60, ">geneA");
    assert Block(0, 4, 8, Black) == Rect(44, 72, 4, 15, Black);
  }

  /** When the exon is found and the motif blocks are drawn, the track is assembled from them. */
  lemma DrawTrackSucceeds(i: nat, header: string, bases: string, pats: seq<Classes>)
    requires FindExon(bases).Success? && MotifMarks(i, Upper(bases), pats, 0).Success?
    ensures DrawTrack(i, header, bases, pats) == Success(Track(GeneLine(i, |bases|), GeneLabel(i, header),
      Block(i, FindExon(bases).value.start, FindExon(bases).value.stop, Black), MotifMarks(i, Upper(bases), pats, 0).value))
  {
  }

  /** The outcome of a run in which every step succeeds. */
  lemma RunSucceeds(fastaLines: seq<string>, motifLines: seq<string>)
    requires MotifLinesInAlphabet(motifLines)
    requires ParseFasta(fastaLines).Success?
    requires DrawTracks(ParseFasta(fastaLines).value, 0, MotifPatterns(motifLines)).Success?
    requires 1 <= |ParseMotifs(motifLines)| <= PaletteSize
    ensures Run(fastaLines, motifLines) == Success(Diagram(CanvasWidth,
      ImageHeight * |ParseFasta(fastaLines).value| + 100,
      DrawTracks(ParseFasta(fastaLines).value, 0, MotifPatterns(motifLines)).value,
      Keys(ParseMotifs(motifLines))))
  {
  }

  /** The diagram a run draws, given what each of its steps yields. */
  lemma RunDiagram(fastaLines: seq<string>, motifLines: seq<string>,
                   entries: seq<(string, string)>, tracks: seq<Track>, legend: seq<string>)
    requires MotifLinesInAlphabet(motifLines)
    requires ParseFasta(fastaLines).Success? && ParseFasta(fastaLines).value == entries
    requires DrawTracks(entries, 0, MotifPatterns(motifLines)).Success?
    requires DrawTracks(entries, 0, MotifPatterns(motifLines)).value == tracks
    requires 1 <= |ParseMotifs(motifLines)| <= PaletteSize && Keys(ParseMotifs(motifLines)) == legend
    ensures Run(fastaLines, motifLines) == Success(Diagram(CanvasWidth, ImageHeight * |entries| + 100, tracks, legend))
  {
    RunSucceeds(fastaLines, motifLines);
    var d := Diagram(CanvasWidth, ImageHeight * |ParseFasta(fastaLines).value| + 100,
      DrawTracks(ParseFasta(fastaLines).value, 0, MotifPatterns(motifLines)).value, Keys(ParseMotifs(motifLines)));
    assert d == Diagram(CanvasWidth, ImageHeight * |entries| + 100, tracks, legend);
  }

  /** The example's single track, drawn as track 0. */
  lemma ExampleTracks(entries: seq<(string, string)>, pats: seq<Classes>)
    requires entries == [(">geneA", "acgtACGTacgt")] && pats == [[{'A'}, {'C'}, {'G'}, {'T'}]]
    ensures DrawTracks(entries, 0, pats) == Success([
      Track(Line(40, 80, 52, 80), Caption(14, 60, ">geneA"), Rect(44, 72, 4, 15, Black),
             [Rect(40, 72, 4, 15, Palette(0)), Rect(44, 72, 4, 15, Palette(0)), Rect(48, 72, 4, 15, Palette(0))])])
  {
    ExampleTrack(pats);
    var t := DrawTrack(0, ">geneA", "acgtACGTacgt", pats).value;
    assert DrawTrack(0, entries[0].0, entries[0].1, pats) == Success(t);
    assert DrawTracks(entries, 1, pats) == Success([]);
    assert [t] + [] == [t];
  }

  /** The example FASTA file with an empty motif file: the tracks are drawn, then the legend fails. */
  lemma NoMotifsExample(fastaLines: seq<string>, motifLines: seq<string>)
    requires fastaLines == [">geneA", "acgtACGTacgt"] && motifLines == []
    ensures MotifLinesInAlphabet(motifLines)
    ensures Run(fastaLines, motifLines) == Failure(NoMotifs)
  {
    ExampleFasta(fastaLines);
    ExonExample("acgtACGTacgt");
    assert ParseMotifs(motifLines) == [];
    RunOutcome(fastaLines, motifLines);
  }

  /**
   * The whole run on one entry `acgtACGTacgt` and the motif `ACGT`: one track
   * with the exon over `[4, 8)` and, since the scan runs over the upper-cased
   * sequence, three motif blocks over `[0, 4)`, `[4, 8)` and `[8, 12)`.
   */
  lemma ExampleRun(fastaLines: seq<string>, motifLines: seq<string>)
    requires fastaLines == [">geneA", "acgtACGTacgt"] && motifLines == ["ACGT"]
    ensures MotifLinesInAlphabet(motifLines)
    ensures Run(fastaLines, motifLines) == Success(Diagram(840, 170,
      [Track(Line(40, 80, 52, 80), Caption(14, 60, ">geneA"), Rect(44, 72, 4, 15, Black),
             [Rect(40, 72, 4, 15, Palette(0)), Rect(44, 72, 4, 15, Palette(0)), Rect(48, 72, 4, 15, Palette(0))])],
      ["ACGT"]))
  {
    ExampleFasta(fastaLines);
    ExampleMotifs(motifLines);
    ExamplePatterns(motifLines);
    var entries := [(">geneA", "acgtACGTacgt")];
    var t := Track(Line(40, 80, 52, 80), Caption(14, 60, ">geneA"), Rect(44, 72, 4, 15, Black),
      [Rect(40, 72, 4, 15, Palette(0)), Rect(44, 72, 4, 15, Palette(0)), Rect(48, 72, 4, 15, Palette(0))]);
    ExampleTracks(entries, MotifPatterns(motifLines));
    assert Keys(ParseMotifs(motifLines)) == ["ACGT"];
    RunDiagram(fastaLines, motifLines, entries, [t], ["ACGT"]);
    assert CanvasWidth == 840 && ImageHeight * |entries| + 100 == 170;
  }
}

=== FILE: ordered_map.dfy ===
/**
 * Python's insertion-ordered `dict` as a sequence of key/value entries with
 * distinct keys. Assigning to a new key appends an entry; assigning to an
 * existing key replaces its value where it stands.
 */
module OrderedMap {
  import opened Wrappers

  /** The keys of the entries, in order. */
  function Keys<V>(m: seq<(string, V)>): (ks: seq<string>)
    ensures |ks| == |m|
    ensures forall i :: 0 <= i < |m| ==> ks[i] == m[i].0
  {
    if m == [] then [] else [m[0].0] + Keys(m[1..])
  }

  predicate Distinct(ks: seq<string>)
  {
    forall i, j :: 0 <= i < j < |ks| ==> ks[i] != ks[j]
  }

  /** `m[k]`: the value of the entry with key `k`, if any. */
  function Get<V>(m: seq<(string, V)>, k: string): (r: Option<V>)
    ensures r.Some? <==> k in Keys(m)
  {
    if m == [] then None else if m[0].0 == k then Some(m[0].1) else Get(m[1..], k)
  }

  /**
   * `m[k] = v`: an existing key keeps its position and takes the new value,
   * a new key is appended at the end, and every other key keeps its value.
   */
  function Put<V>(m: seq<(string, V)>, k: string, v: V): (r: seq<(string, V)>)
    ensures Keys(r) == if k in Keys(m) then Keys(m) else Keys(m) + [k]
    ensures Get(r, k) == Some(v)
    ensures forall k' :: k' != k ==> Get(r, k') == Get(m, k')
  {
    if m == [] then [(k, v)]
    else if m[0].0 == k then
      var r := [(k, v)] + m[1..];
      assert r[1..] == m[1..];
      assert Keys(r) == [k] + Keys(m[1..]) == Keys(m);
      r
    else
      var rest := Put(m[1..], k, v);
      var r := [m[0]] + rest;
      assert r[0] == m[0] && r[1..] == rest;
      assert Keys(r) == [m[0].0] + Keys(rest);
      r
  }

  /** Assigning to the key of the first entry replaces that entry. */
  lemma PutAtHead<V>(m: seq<(string, V)>, k: string, v: V)
    requires m != [] && m[0].0 == k
    ensures Put(m, k, v) == [(k, v)] + m[1..]
  {
  }

  /** Assigning to any other key leaves the first entry in front of the rest's assignment. */
  lemma PutPastHead<V>(m: seq<(string, V)>, k: string, v: V)
    requires m != [] && m[0].0 != k
    ensures Put(m, k, v) == [m[0]] + Put(m[1..], k, v)
  {
  }

  /** A second assignment to the same key overrides the first. */
  lemma {:induction false} PutPut<V>(m: seq<(string, V)>, k: string, a: V, b: V)
    ensures Put(Put(m, k, a), k, b) == Put(m, k, b)
  {
    if m != [] && m[0].0 != k {
      PutPut(m[1..], k, a, b);
    }
  }

  /** Assigning a key the value it already has changes nothing. */
  lemma {:induction false} PutSame<V>(m: seq<(string, V)>, k: string, v: V)
    requires Get(m, k) == Some(v)
    ensures Put(m, k, v) == m
  {
    if m[0].0 == k {
      assert m == [m[0]] + m[1..];
    } else {
      PutSame(m[1..], k, v);
      assert m == [m[0]] + m[1..];
    }
  }

  /** Assigning keys one after another, in the order of `ps`. */
  function PutAll<V>(m: seq<(string, V)>, ps: seq<(string, V)>): seq<(string, V)>
    decreases |ps|
  {
    if ps == [] then m else PutAll(Put(m, ps[0].0, ps[0].1), ps[1..])
  }

  /** The dictionary built by assigning the pairs of `ps` to an empty one in order. */
  function FromPairs<V>(ps: seq<(string, V)>): seq<(string, V)>
  {
    PutAll([], ps)
  }

  /** The value of the last pair of `ps` whose key is `k`, if any. */
  function LastValue<V>(ps: seq<(string, V)>, k: string): (r: Option<V>)
    ensures r.Some? <==> k in Keys(ps)
  {
    if ps == [] then None
    else if ps[|ps| - 1].0 == k then Some(ps[|ps| - 1].1)
    else
      assert Keys(ps) == Keys(ps[..|ps| - 1]) + [ps[|ps| - 1].0];
      LastValue(ps[..|ps| - 1], k)
  }

  /** The index of the first occurrence of `x` in `xs`. */
  function FirstIndex(xs: seq<string>, x: string): (i: nat)
    requires x in xs
    ensures i < |xs| && xs[i] == x
    ensures forall j :: 0 <= j < i ==> xs[j] != x
  {
    if xs[0] == x then 0 else 1 + FirstIndex(xs[1..], x)
  }

  /** Appending an element does not move the first occurrence of anything already present. */
  lemma FirstIndexAppend(xs: seq<string>, y: string, x: string)
    requires x in xs
    ensures FirstIndex(xs + [y], x) == FirstIndex(xs, x)
  {
    var i := FirstIndex(xs, x);
    var i' := FirstIndex(xs + [y], x);
    assert (xs + [y])[i] == x;
    assert i' <= i;
    assert xs[i'] == x;
  }

  /** The pairs of a sequence that ends with `p`: the entries before it, then `p`. */
  lemma {:induction false} PutAllSnoc<V>(m: seq<(string, V)>, ps: seq<(string, V)>, p: (string, V))
    ensures PutAll(m, ps + [p]) == Put(PutAll(m, ps), p.0, p.1)
    decreases |ps|
  {
    if ps == [] {
      assert ps + [p] == [p];
    } else {
      assert (ps + [p])[1..] == ps[1..] + [p];
      PutAllSnoc(Put(m, ps[0].0, ps[0].1), ps[1..], p);
    }
  }

  /** A dictionary, its keys ordered by where they first occur in `xs`. */
  ghost predicate OrderedBy(ks: seq<string>, xs: seq<string>)
  {
    && Distinct(ks)
    && (forall k :: k in ks <==> k in xs)
    && (forall i, j :: 0 <= i < j < |ks| ==> ks[i] in xs && ks[j] in xs && FirstIndex(xs, ks[i]) < FirstIndex(xs, ks[j]))
  }

  /** Extending the history keeps the first occurrence of every key already in it. */
  lemma OrderedByExtend(ks: seq<string>, xs: seq<string>, k: string)
    requires OrderedBy(ks, xs) && k in ks
    ensures OrderedBy(ks, xs + [k])
  {
    var ys := xs + [k];
    forall i, j | 0 <= i < j < |ks|
      ensures ks[i] in ys && ks[j] in ys && FirstIndex(ys, ks[i]) < FirstIndex(ys, ks[j])
    {
      FirstIndexAppend(xs, k, ks[i]);
      FirstIndexAppend(xs, k, ks[j]);
    }
  }

  /** A key seen for the first time goes after every key already present. */
  lemma OrderedByAppend(ks: seq<string>, xs: seq<string>, k: string)
    requires OrderedBy(ks, xs) && k !in ks
    ensures OrderedBy(ks + [k], xs + [k])
  {
    var ys := xs + [k];
    var after := ks + [k];
    assert k !in xs;
    assert FirstIndex(ys, k) == |xs| by {
      assert ys[|xs|] == k;
    }
    forall i, j | 0 <= i < j < |after|
      ensures after[i] in ys && after[j] in ys && FirstIndex(ys, after[i]) < FirstIndex(ys, after[j])
    {
      assert after[i] == ks[i];
      FirstIndexAppend(xs, k, ks[i]);
      if j < |ks| {
        assert after[j] == ks[j];
        FirstIndexAppend(xs, k, ks[j]);
      }
    }
    assert forall x :: x in after <==> x in ys;
  }

  /** Assigning `k` keeps the keys ordered by first occurrence once `k` is appended to the history. */
  lemma OrderedByPut<V>(m: seq<(string, V)>, xs: seq<string>, k: string, v: V)
    requires OrderedBy(Keys(m), xs)
    ensures OrderedBy(Keys(Put(m, k, v)), xs + [k])
  {
    if k in Keys(m) {
      OrderedByExtend(Keys(m), xs, k);
    } else {
      OrderedByAppend(Keys(m), xs, k);
    }
  }

  /**
   * The keys of the dictionary built from `ps` are the distinct keys of `ps`,
   * in the order in which each key first occurs: a repeated key keeps the
   * position of its first assignment.
   */
  lemma {:induction false} FromPairsKeys<V>(ps: seq<(string, V)>)
    ensures OrderedBy(Keys(FromPairs(ps)), Keys(ps))
    decreases |ps|
  {
    if ps != [] {
      var init := ps[..|ps| - 1];
      var p := ps[|ps| - 1];
      assert ps == init + [p];
      FromPairsKeys(init);
      KeysSnoc(init, p);
      PutAllSnoc([], init, p);
      OrderedByPut(FromPairs(init), Keys(init), p.0, p.1);
    }
  }

  /** The keys of entries with one more at the end end with its key. */
  lemma KeysSnoc<V>(init: seq<(string, V)>, p: (string, V))
    ensures Keys(init + [p]) == Keys(init) + [p.0]
  {
    var a := Keys(init + [p]);
    var b := Keys(init) + [p.0];
    forall i | 0 <= i < |a|
      ensures a[i] == b[i]
    {
      if i < |init| {
        assert (init + [p])[i] == init[i];
      }
    }
  }

  /** Looking a key up in the dictionary built from `ps` gives the value of its last pair. */
  lemma {:induction false} FromPairsGet<V>(ps: seq<(string, V)>, k: string)
    ensures Get(FromPairs(ps), k) == LastValue(ps, k)
    decreases |ps|
  {
    if ps != [] {
      var init := ps[..|ps| - 1];
      var p := ps[|ps| - 1];
      assert ps == init + [p];
      PutAllSnoc([], init, p);
      FromPairsGet(init, k);
    }
  }

  /** In a dictionary with distinct keys, the entry at position `i` is what its key looks up. */
  lemma {:induction false} GetAt<V>(m: seq<(string, V)>, i: nat)
    requires Distinct(Keys(m)) && i < |m|
    ensures Get(m, m[i].0) == Some(m[i].1)
  {
    if i > 0 {
      assert Keys(m[1..]) == Keys(m)[1..];
      GetAt(m[1..], i - 1);
    }
  }

  /** The value of the last pair with key `k` is the value of some pair with key `k`. */
  lemma {:induction false} LastValueIn<V>(ps: seq<(string, V)>, k: string)
    requires LastValue(ps, k).Some?
    ensures (k, LastValue(ps, k).value) in ps
  {
    if ps[|ps| - 1].0 != k {
      LastValueIn(ps[..|ps| - 1], k);
    }
  }

  /** Every entry of the dictionary built from `ps` is one of the pairs of `ps`. */
  lemma FromPairsEntry<V>(ps: seq<(string, V)>, i: nat)
    requires i < |FromPairs(ps)|
    ensures FromPairs(ps)[i] in ps
  {
    var d := FromPairs(ps);
    var k := d[i].0;
    FromPairsKeys(ps);
    assert k == Keys(d)[i];
    GetAt(d, i);
    FromPairsGet(ps, k);
    LastValueIn(ps, k);
  }
}

=== FILE: parsers.dfy ===
/**
 * The two input readers. Both strip each line and stop at the first line that
 * is blank after stripping (or at the end of the file); `Live` is that prefix.
 *
 * - The motif reader maps each stripped motif line to its expansion.
 * - The FASTA reader opens an entry, with an empty body, at each header line
 *   (one starting with `>`), keyed by the whole line, and appends every other
 *   line to the body of the current header with no separator. A body line
 *   before any header is an error (the script reads an unbound `header`).
 */
module Parsers {
  import opened Wrappers
  import opened Text
  import opened Iupac
  import opened OrderedMap

  /** The stripped lines a reading loop processes: those before the first blank one. */
  function Live(lines: seq<string>): (r: seq<string>)
    ensures |r| <= |lines|
    ensures forall i :: 0 <= i < |r| ==> r[i] == Strip(lines[i]) && r[i] != []
    ensures |r| < |lines| ==> Strip(lines[|r|]) == []
  {
    if lines == [] then []
    else
      var line := Strip(lines[0]);
      if line == [] then []
      else
        var rest := Live(lines[1..]);
        LiveCons(lines, rest, Strip);
        LiveConsStop(lines, rest);
        [line] + rest
  }

  /**
   * A live first line followed by the live lines of the rest are live lines;
   * stated for any line-cleaning function `clean`, which `Live` instantiates
   * with `Strip`.
   */
  lemma LiveCons(lines: seq<string>, rest: seq<string>, clean: string -> string)
    requires lines != [] && clean(lines[0]) != []
    requires forall i :: 0 <= i < |rest| && i + 1 < |lines| ==> rest[i] == clean(lines[1..][i]) && rest[i] != []
    requires |rest| <= |lines| - 1
    ensures var r := [clean(lines[0])] + rest;
      forall i :: 0 <= i < |r| ==> r[i] == clean(lines[i]) && r[i] != []
  {
    var r := [clean(lines[0])] + rest;
    forall i | 1 <= i < |r|
      ensures r[i] == clean(lines[i])
    {
      assert r[i] == rest[i - 1] && lines[1..][i - 1] == lines[i];
    }
  }

  /** The line after the live lines of the rest is the one that stops the whole file. */
  lemma LiveConsStop(lines: seq<string>, rest: seq<string>)
    requires lines != [] && |rest| <= |lines| - 1
    requires |rest| < |lines| - 1 ==> Strip(lines[1..][|rest|]) == []
    ensures 1 + |rest| < |lines| ==> Strip(lines[1 + |rest|]) == []
  {
    if 1 + |rest| < |lines| {
      assert lines[1..][|rest|] == lines[1 + |rest|];
    }
  }

  // ---------------------------------------------------------------- motif file

  /** Each motif line paired with its expansion, in file order. */
  function MotifPairs(live: seq<string>): (ps: seq<(string, string)>)
    ensures Keys(ps) == live
    ensures forall j :: 0 <= j < |ps| ==> ps[j].1 == Expand(ps[j].0)
  {
    var ps := seq(|live|, i requires 0 <= i < |live| => (live[i], Expand(live[i])));
    assert Keys(ps) == live;
    ps
  }

  /** The motif dictionary: `motif_dict[line] = non_ambig_motifs(line)` for each live line. */
  function ParseMotifs(lines: seq<string>): seq<(string, string)>
  {
    FromPairs(MotifPairs(Live(lines)))
  }

  /**
   * The motif dictionary holds each distinct live line once, in order of first
   * appearance, keyed by the line as written (not upper-cased) and mapped to
   * its expansion; no key is empty.
   */
  lemma ParseMotifsSpec(lines: seq<string>)
    ensures var d := ParseMotifs(lines);
      && OrderedBy(Keys(d), Live(lines))
      && (forall i :: 0 <= i < |d| ==> d[i].1 == Expand(d[i].0) && d[i].0 != [])
  {
    var live := Live(lines);
    var ps := MotifPairs(live);
    FromPairsKeys(ps);
    assert forall j :: 0 <= j < |ps| ==> ps[j].0 != [] by {
      forall j | 0 <= j < |ps|
        ensures ps[j].0 != []
      {
        assert ps[j].0 == Keys(ps)[j];
      }
    }
    ExpandedEntries(ps);
  }

  /** Entries built from non-empty motifs paired with their expansions are such pairs too. */
  lemma ExpandedEntries(ps: seq<(string, string)>)
    requires forall j :: 0 <= j < |ps| ==> ps[j].1 == Expand(ps[j].0) && ps[j].0 != []
    ensures var d := FromPairs(ps);
      forall i :: 0 <= i < |d| ==> d[i].1 == Expand(d[i].0) && d[i].0 != []
  {
    var d := FromPairs(ps);
    forall i | 0 <= i < |d|
      ensures d[i].1 == Expand(d[i].0) && d[i].0 != []
    {
      FromPairsEntry(ps, i);
    }
  }

  // ---------------------------------------------------------------- FASTA file

  datatype FastaError = MissingHeader

  predicate IsHeader(line: string) { |line| > 0 && line[0] == '>' }

  /**
   * The FASTA loop over the live lines, with the dictionary built so far and
   * the current header (`None` until the first header line).
   */
  function ReadFasta(live: seq<string>, dict: seq<(string, string)>, current: Option<string>)
    : Result<seq<(string, string)>, FastaError>
    requires current.Some? ==> current.value in Keys(dict)
    decreases |live|
  {
    if live == [] then Success(dict)
    else if IsHeader(live[0]) then ReadFasta(live[1..], Put(dict, live[0], ""), Some(live[0]))
    else
      match current
      case None => Failure(MissingHeader)
      case Some(h) => ReadFasta(live[1..], Put(dict, h, Get(dict, h).value + live[0]), current)
  }

  /** The FASTA dictionary, from the lines of the file. */
  function ParseFasta(lines: seq<string>): Result<seq<(string, string)>, FastaError>
  {
    ReadFasta(Live(lines), [], None)
  }

  /** The number of body (non-header) lines at the front of `xs`. */
  function BodyLength(xs: seq<string>): (n: nat)
    ensures n <= |xs|
    ensures forall i :: 0 <= i < n ==> !IsHeader(xs[i])
    ensures n < |xs| ==> IsHeader(xs[n])
  {
    if xs == [] || IsHeader(xs[0]) then 0 else 1 + BodyLength(xs[1..])
  }

  /**
   * The reference reading of a FASTA text that starts with a header: one
   * record per header line, in file order and repeats included, holding the
   * header and its body lines joined up to the next header.
   */
  function Records(live: seq<string>): seq<(string, string)>
    requires live == [] || IsHeader(live[0])
    decreases |live|
  {
    if live == [] then []
    else
      var n := 1 + BodyLength(live[1..]);
      [(live[0], Concat(live[1..n]))] + Records(live[n..])
  }

  /** The header lines of `live`, in order, repeats included. */
  function Headers(live: seq<string>): seq<string>
  {
    if live == [] then [] else (if IsHeader(live[0]) then [live[0]] else []) + Headers(live[1..])
  }

  lemma {:induction false} HeadersAppend(a: seq<string>, b: seq<string>)
    ensures Headers(a + b) == Headers(a) + Headers(b)
  {
    if a == [] {
      assert a + b == b;
    } else {
      assert (a + b)[0] == a[0];
      assert (a + b)[1..] == a[1..] + b;
      var first := if IsHeader(a[0]) then [a[0]] else [];
      assert Headers(a + b) == first + Headers(a[1..] + b);
      assert Headers(a) == first + Headers(a[1..]);
      HeadersAppend(a[1..], b);
      assert first + (Headers(a[1..]) + Headers(b)) == (first + Headers(a[1..])) + Headers(b);
    }
  }

  lemma {:induction false} HeadersOfBody(body: seq<string>)
    requires forall i :: 0 <= i < |body| ==> !IsHeader(body[i])
    ensures Headers(body) == []
  {
    if body != [] {
      HeadersOfBody(body[1..]);
    }
  }

  /** The records are keyed by the header lines, in order. */
  lemma {:induction false} RecordKeys(live: seq<string>)
    requires live == [] || IsHeader(live[0])
    ensures Keys(Records(live)) == Headers(live)
    decreases |live|
  {
    if live != [] {
      var n := 1 + BodyLength(live[1..]);
      var head := [live[0]] + live[1..n];
      assert Headers(head) == [live[0]] by {
        BodyLines(live, n);
        HeadersOfBody(live[1..n]);
        HeadersAppend([live[0]], live[1..n]);
        assert Headers([live[0]]) == [live[0]] + Headers([]);
      }
      assert Headers(live) == [live[0]] + Headers(live[n..]) by {
        assert live == head + live[n..];
        HeadersAppend(head, live[n..]);
      }
      RecordKeys(live[n..]);
      assert Keys(Records(live)) == [live[0]] + Keys(Records(live[n..]));
    }
  }

  /** One body line under header `h` is appended to `h`'s current body. */
  lemma ReadBodyLine(live: seq<string>, dict: seq<(string, string)>, h: string)
    requires live != [] && !IsHeader(live[0])
    requires h in Keys(dict)
    ensures ReadFasta(live, dict, Some(h))
         == ReadFasta(live[1..], Put(dict, h, Get(dict, h).value + live[0]), Some(h))
  {
  }

  /** Reading no body lines leaves the dictionary as it is. */
  lemma ReadNoBody(rest: seq<string>, dict: seq<(string, string)>, h: string)
    requires h in Keys(dict)
    ensures ReadFasta(rest, dict, Some(h))
         == ReadFasta(rest, Put(dict, h, Get(dict, h).value + Concat([])), Some(h))
  {
    assert Get(dict, h).value + Concat([]) == Get(dict, h).value;
    PutSame(dict, h, Get(dict, h).value);
  }

  /** The first of several body lines is appended, and reading goes on with the others. */
  lemma ReadBodyStep(body: seq<string>, rest: seq<string>, dict: seq<(string, string)>, h: string)
    requires body != [] && !IsHeader(body[0])
    requires h in Keys(dict)
    ensures ReadFasta(body + rest, dict, Some(h))
         == ReadFasta(body[1..] + rest, Put(dict, h, Get(dict, h).value + body[0]), Some(h))
  {
    assert (body + rest)[0] == body[0];
    assert (body + rest)[1..] == body[1..] + rest;
    ReadBodyLine(body + rest, dict, h);
  }

  /** Appending `a` to `h`'s value, then `b`, is appending `a + b` once. */
  lemma PutAppend(dict: seq<(string, string)>, h: string, a: string, b: string)
    requires h in Keys(dict)
    ensures var next := Put(dict, h, Get(dict, h).value + a);
      Put(next, h, Get(next, h).value + b) == Put(dict, h, Get(dict, h).value + (a + b))
  {
    var v := Get(dict, h).value + a;
    PutPut(dict, h, v, v + b);
    assert v + b == Get(dict, h).value + (a + b);
  }

  /** Reading body lines under header `h` appends them, joined, to `h`'s current body. */
  lemma {:induction false} ReadBody(body: seq<string>, rest: seq<string>, dict: seq<(string, string)>, h: string)
    requires forall i :: 0 <= i < |body| ==> !IsHeader(body[i])
    requires h in Keys(dict)
    ensures ReadFasta(body + rest, dict, Some(h))
         == ReadFasta(rest, Put(dict, h, Get(dict, h).value + Concat(body)), Some(h))
    decreases |body|
  {
    if body == [] {
      assert body + rest == rest;
      ReadNoBody(rest, dict, h);
    } else {
      var next := Put(dict, h, Get(dict, h).value + body[0]);
      ReadBodyStep(body, rest, dict, h);
      ReadBody(body[1..], rest, next, h);
      PutAppend(dict, h, body[0], Concat(body[1..]));
      assert Concat(body) == body[0] + Concat(body[1..]);
    }
  }

  /** A suffix is the slice up to `j` followed by the suffix from `j`. */
  lemma SliceSplit(xs: seq<string>, i: nat, j: nat)
    requires i <= j <= |xs|
    ensures xs[i..] == xs[i..j] + xs[j..]
  {
  }

  /** The lines after a header, up to the next header, are body lines. */
  lemma BodyLines(live: seq<string>, n: nat)
    requires live != [] && n == 1 + BodyLength(live[1..])
    ensures forall i :: 0 <= i < |live[1..n]| ==> !IsHeader(live[1..n][i])
  {
    forall i | 0 <= i < |live[1..n]|
      ensures !IsHeader(live[1..n][i])
    {
      assert live[1..n][i] == live[1..][i];
    }
  }

  /** A record started with an empty body ends holding its body lines, joined. */
  lemma FillRecord(body: seq<string>, rest: seq<string>, dict: seq<(string, string)>, h: string)
    requires forall i :: 0 <= i < |body| ==> !IsHeader(body[i])
    ensures ReadFasta(body + rest, Put(dict, h, ""), Some(h)) == ReadFasta(rest, Put(dict, h, Concat(body)), Some(h))
  {
    ReadBody(body, rest, Put(dict, h, ""), h);
    PutPut(dict, h, "", "" + Concat(body));
    assert "" + Concat(body) == Concat(body);
  }

  /** A header line starts its record with an empty body; its body lines then fill it. */
  lemma ReadRecord(live: seq<string>, n: nat, dict: seq<(string, string)>, current: Option<string>)
    requires live != [] && IsHeader(live[0]) && n == 1 + BodyLength(live[1..])
    requires current.Some? ==> current.value in Keys(dict)
    ensures ReadFasta(live, dict, current) == ReadFasta(live[n..], Put(dict, live[0], Concat(live[1..n])), Some(live[0]))
  {
    assert ReadFasta(live, dict, current) == ReadFasta(live[1..], Put(dict, live[0], ""), Some(live[0]));
    SliceSplit(live, 1, n);
    BodyLines(live, n);
    FillRecord(live[1..n], live[n..], dict, live[0]);
  }

  /** Assigning the records of a text assigns its first record, then the records after it. */
  lemma PutAllRecords(live: seq<string>, n: nat, dict: seq<(string, string)>)
    requires live != [] && IsHeader(live[0]) && n == 1 + BodyLength(live[1..])
    ensures PutAll(dict, Records(live)) == PutAll(Put(dict, live[0], Concat(live[1..n])), Records(live[n..]))
  {
    var rs := Records(live);
    assert rs[0] == (live[0], Concat(live[1..n])) && rs[1..] == Records(live[n..]);
  }

  /** On a text that starts with a header, the loop assigns the records in order. */
  lemma {:induction false} ReadRecords(live: seq<string>, dict: seq<(string, string)>, current: Option<string>)
    requires live == [] || IsHeader(live[0])
    requires current.Some? ==> current.value in Keys(dict)
    ensures ReadFasta(live, dict, current) == Success(PutAll(dict, Records(live)))
    decreases |live|
  {
    if live != [] {
      var n := 1 + BodyLength(live[1..]);
      var filled := Put(dict, live[0], Concat(live[1..n]));
      ReadRecord(live, n, dict, current);
      ReadRecords(live[n..], filled, Some(live[0]));
      PutAllRecords(live, n, dict);
    }
  }

  /**
   * The FASTA reader fails exactly when the first live line is not a header;
   * otherwise it returns the dictionary built by assigning the records in order.
   */
  lemma ParseFastaOutcome(lines: seq<string>)
    ensures var live := Live(lines);
      && (ParseFasta(lines).Failure? <==> live != [] && !IsHeader(live[0]))
      && (ParseFasta(lines).Success? ==> ParseFasta(lines).value == FromPairs(Records(live)))
  {
    var live := Live(lines);
    if live == [] || IsHeader(live[0]) {
      ReadRecords(live, [], None);
    }
  }

  /**
   * What the FASTA dictionary holds: one entry per distinct header line, in
   * order of first appearance (a repeated header keeps its first position), and
   * for each header the joined body of its last record (a repeated header
   * starts again from an empty body).
   */
  lemma ParseFastaSpec(lines: seq<string>)
    requires ParseFasta(lines).Success?
    ensures var live := Live(lines);
      var d := ParseFasta(lines).value;
      && (live == [] || IsHeader(live[0]))
      && OrderedBy(Keys(d), Headers(live))
      && (forall h :: Get(d, h) == LastValue(Records(live), h))
  {
    var live := Live(lines);
    ParseFastaOutcome(lines);
    RecordKeys(live);
    FromPairsKeys(Records(live));
    forall h
      ensures Get(FromPairs(Records(live)), h) == LastValue(Records(live), h)
    {
      FromPairsGet(Records(live), h);
    }
  }

  /** A body line before any header makes the FASTA reader fail. */
  lemma MissingHeaderExample(lines: seq<string>)
    requires lines == ["ACGT\n", ">geneA\n"]
    ensures ParseFasta(lines) == Failure(MissingHeader)
  {
    assert Strip(lines[0]) == "ACGT" by {
      assert lines[0] == "ACGT" + "\n";
      StripNewline("ACGT");
    }
    var live := Live(lines);
    assert live != [] && live[0] == "ACGT";
    assert !IsHeader(live[0]);
  }

  /** The live lines are the prefix before the first blank line, whatever that prefix is. */
  lemma LivePrefix(lines: seq<string>, n: nat)
    requires n <= |lines|
    requires forall i :: 0 <= i < n ==> Strip(lines[i]) == lines[i] && lines[i] != []
    requires n < |lines| ==> Strip(lines[n]) == []
    ensures Live(lines) == lines[..n]
  {
    var r := Live(lines);
    assert |r| == n;
    assert forall i :: 0 <= i < n ==> r[i] == lines[i];
  }

  /** The live lines of a small FASTA text that ends with a blank line. */
  lemma LiveExample(lines: seq<string>)
    requires lines == [">a", "AC", ">b", ">a", "TT", " ", ">c"]
    ensures Live(lines) == [">a", "AC", ">b", ">a", "TT"]
  {
    forall i | 0 <= i < 5
      ensures Strip(lines[i]) == lines[i] && lines[i] != []
    {
      StripUnspaced(lines[i]);
    }
    assert Strip(lines[5]) == [] by { assert Blank(lines[5]); }
    LivePrefix(lines, 5);
    assert lines[..5] == [">a", "AC", ">b", ">a", "TT"];
  }

  /** A header line opens (or re-opens) its entry with an empty body. */
  lemma ReadHeaderLine(live: seq<string>, dict: seq<(string, string)>, current: Option<string>)
    requires live != [] && IsHeader(live[0])
    requires current.Some? ==> current.value in Keys(dict)
    ensures ReadFasta(live, dict, current) == ReadFasta(live[1..], Put(dict, live[0], ""), Some(live[0]))
  {
  }

  /** The FASTA loop over the live lines of the example below, one line at a time. */
  lemma ReadExample(live: seq<string>, d0: seq<(string, string)>, d1: seq<(string, string)>,
                    d2: seq<(string, string)>, d3: seq<(string, string)>)
    requires live == [">a", "AC", ">b", ">a", "TT"]
    requires d0 == Put([], ">a", "") && d1 == Put(d0, ">a", "" + "AC")
    requires d2 == Put(d1, ">b", "") && d3 == Put(d2, ">a", "")
    ensures ReadFasta(live, [], None) == ReadFasta([], Put(d3, ">a", "" + "TT"), Some(">a"))
  {
    ReadHeaderLine(live, [], None);
    ReadBodyLine(live[1..], d0, ">a");
    ReadHeaderLine(live[2..], d1, Some(">a"));
    ReadHeaderLine(live[3..], d2, Some(">b"));
    ReadBodyLine(live[4..], d3, ">a");
    assert live[1..][1..] == live[2..] && live[2..][1..] == live[3..] && live[3..][1..] == live[4..];
    assert live[4..][1..] == [];
  }

  /** The dictionary states the example below passes through. */
  lemma PutSteps()
    ensures Put([], ">a", "") == [(">a", "")]
    ensures Put([(">a", "")], ">a", "" + "AC") == [(">a", "AC")]
    ensures Put([(">a", "AC")], ">b", "") == [(">a", "AC"), (">b", "")]
    ensures Put([(">a", "AC"), (">b", "")], ">a", "") == [(">a", ""), (">b", "")]
    ensures Put([(">a", ""), (">b", "")], ">a", "" + "TT") == [(">a", "TT"), (">b", "")]
  {
    assert Put([(">a", "")], ">a", "" + "AC") == [(">a", "AC")] by {
      assert "" + "AC" == "AC";
      PutAtHead([(">a", "")], ">a", "AC");
    }
    assert Put([(">a", "AC")], ">b", "") == [(">a", "AC"), (">b", "")] by {
      PutPastHead([(">a", "AC")], ">b", "");
    }
    assert Put([(">a", "AC"), (">b", "")], ">a", "") == [(">a", ""), (">b", "")] by {
      PutAtHead([(">a", "AC"), (">b", "")], ">a", "");
    }
    assert Put([(">a", ""), (">b", "")], ">a", "" + "TT") == [(">a", "TT"), (">b", "")] by {
      assert "" + "TT" == "TT";
      PutAtHead([(">a", ""), (">b", "")], ">a", "TT");
    }
  }

  /**
   * A repeated header keeps its first position but restarts its body, and a
   * blank line ends the input.
   */
  lemma RepeatedHeaderExample(lines: seq<string>)
    requires lines == [">a", "AC", ">b", ">a", "TT", " ", ">c"]
    ensures ParseFasta(lines) == Success([(">a", "TT"), (">b", "")])
  {
    LiveExample(lines);
    PutSteps();
    ReadExample(Live(lines), [(">a", "")], [(">a", "AC")], [(">a", "AC"), (">b", "")], [(">a", ""), (">b", "")]);
  }
}

=== FILE: pattern.dfy ===
/**
 * The part of Python's regular-expression syntax that an expanded motif uses:
 * a letter matches itself, and `[...]` is a character class matching any one
 * character written between the brackets (so `[A|T]` matches `A`, `|` or `T`).
 * `Compile` turns such a pattern into one set of characters per position; any
 * other syntax is outside the model and yields `None`.
 */
module Pattern {
  import opened Wrappers
  import opened Text
  import opened Iupac

  /** A fixed-length pattern: position `k` accepts exactly the characters of `p[k]`. */
  type Classes = seq<set<char>>

  /** The set of characters written in `s`. */
  function CharSet(s: string): (r: set<char>)
    ensures forall c :: c in r <==> c in s
  {
    set i | 0 <= i < |s| :: s[i]
  }

  /** Puts a class in front of a compiled rest, passing a failure through. */
  function Cons(c: set<char>, rest: Option<Classes>): Option<Classes>
  {
    match rest
    case None => None
    case Some(cs) => Some([c] + cs)
  }

  /** The index of the `]` closing a class whose body starts at `i`, if the body is well formed. */
  function ClassEnd(p: string, i: nat): (r: Option<nat>)
    ensures r.Some? ==> i <= r.value < |p| && p[r.value] == ']'
    ensures r.Some? ==> forall k :: i <= k < r.value ==> ClassChar(p[k])
    decreases |p| - i
  {
    if i >= |p| then None
    else if p[i] == ']' then Some(i)
    else if ClassChar(p[i]) then ClassEnd(p, i + 1)
    else None
  }

  /** The class body is found up to the first `]` when everything before it is a class character. */
  lemma {:induction false} ClassEndFound(p: string, i: nat, j: nat)
    requires i <= j < |p| && p[j] == ']'
    requires forall k :: i <= k < j ==> ClassChar(p[k])
    ensures ClassEnd(p, i) == Some(j)
    decreases j - i
  {
    if i < j {
      ClassEndFound(p, i + 1, j);
    }
  }

  /** The per-position classes of a pattern written with letters and non-empty `[...]` classes. */
  function Compile(p: string): Option<Classes>
    decreases |p|
  {
    if p == [] then Some([])
    else if IsLetter(p[0]) then Cons({p[0]}, Compile(p[1..]))
    else if p[0] == '[' then
      match ClassEnd(p, 1)
      case None => None
      case Some(j) => if j == 1 then None else Cons(CharSet(p[1..j]), Compile(p[j + 1..]))
    else None
  }

  /** The class a motif symbol stands for: the characters of its table entry, or the symbol alone. */
  function SymbolClass(c: char): set<char>
  {
    if IsCode(c) then CharSet(ClassText(c)[1..|ClassText(c)| - 1]) else {c}
  }

  /** The classes of the symbols of `u`, in order. */
  function ClassesOf(u: string): (r: Classes)
    ensures |r| == |u|
    ensures forall i :: 0 <= i < |u| ==> r[i] == SymbolClass(u[i])
  {
    if u == [] then [] else [SymbolClass(u[0])] + ClassesOf(u[1..])
  }

  /** The classes a motif denotes, one per symbol of the upper-cased motif. */
  function MotifClasses(motif: string): (r: Classes)
    ensures |r| == |motif|
  {
    ClassesOf(Upper(motif))
  }

  /** Compiling one expanded symbol in front of more pattern text yields its class in front. */
  lemma CompileSymbol(c: char, rest: string)
    requires IsUpper(c)
    ensures Compile(Symbolwise([c]) + rest) == Cons(SymbolClass(c), Compile(rest))
  {
    SymbolwiseOne(c);
    if IsCode(c) {
      var r := ClassText(c);
      var p := r + rest;
      assert p[0] == '[';
      forall k | 1 <= k < |r| - 1
        ensures ClassChar(p[k])
      {
        assert p[k] == r[k];
      }
      ClassEndFound(p, 1, |r| - 1);
      assert p[1..|r| - 1] == r[1..|r| - 1];
      assert p[|r|..] == rest;
    } else {
      assert ([c] + rest)[1..] == rest;
    }
  }

  lemma {:induction false} CompileSymbolwise(u: string)
    requires forall i :: 0 <= i < |u| ==> IsUpper(u[i])
    ensures Compile(Symbolwise(u)) == Some(ClassesOf(u))
  {
    if u == [] {
    } else {
      assert u == [u[0]] + u[1..];
      SymbolwiseAppend([u[0]], u[1..], |Table|);
      CompileSymbol(u[0], Symbolwise(u[1..]));
      CompileSymbolwise(u[1..]);
    }
  }

  /**
   * Compiling the expansion of a letters-only motif gives one class per motif
   * symbol: the class of its ambiguity code, or the upper-cased base itself.
   * So the pattern the script hands to `re.finditer` always has the motif's length.
   */
  lemma CompileExpand(motif: string)
    requires AllLetters(motif)
    ensures Compile(Expand(motif)) == Some(MotifClasses(motif))
  {
    ExpandIsSymbolwise(motif);
    CompileSymbolwise(Upper(motif));
  }

  /** Every class of a motif holds an upper-case base and nothing lower-case or blank. */
  lemma MotifClassesUpper(motif: string, k: int, c: char)
    requires AllLetters(motif)
    requires 0 <= k < |motif| && c in MotifClasses(motif)[k]
    ensures IsUpper(c) || c == '|'
  {
    var u := Upper(motif);
    if IsCode(u[k]) {
      var r := ClassText(u[k]);
      var i :| 1 <= i < |r| - 1 && r[i] == c;
    }
  }
}

=== FILE: scanner.dfy ===
/**
 * `re.finditer` for a compiled motif: the leftmost match at or after the
 * current position is reported, and the search resumes at its end (one past
 * it for an empty match). Every match of a fixed-length pattern has the
 * pattern's length, so a match is fully described by its start.
 */
module Scanner {
  import opened Wrappers
  import opened Pattern

  /** A half-open range `[start, stop)` of the scanned text. */
  datatype Span = Span(start: nat, stop: nat)

  /** The pattern matches the text starting at `pos`: every position lies in its class. */
  predicate MatchesAt(p: Classes, text: string, pos: int)
  {
    && 0 <= pos && pos + |p| <= |text|
    && forall k :: 0 <= k < |p| ==> text[pos + k] in p[k]
  }

  /** Where the search resumes after the match `s`. */
  function Resume(s: Span): nat
  {
    if s.stop > s.start then s.stop else s.start + 1
  }

  /** The leftmost match at or after `from`, if there is one. */
  function FirstMatch(p: Classes, text: string, from: nat): (r: Option<nat>)
    ensures r.Some? ==> from <= r.value && MatchesAt(p, text, r.value)
    ensures r.Some? ==> forall q :: from <= q < r.value ==> !MatchesAt(p, text, q)
    ensures r.None? ==> forall q :: from <= q ==> !MatchesAt(p, text, q)
    decreases |text| + 1 - from
  {
    if from + |p| > |text| then None
    else if MatchesAt(p, text, from) then Some(from)
    else FirstMatch(p, text, from + 1)
  }

  /**
   * The matches reported when scanning from `from`: each is a real match of
   * the pattern's length, they come in strictly increasing order of start, and
   * no two overlap.
   */
  function ScanFrom(p: Classes, text: string, from: nat): (r: seq<Span>)
    ensures forall i :: 0 <= i < |r| ==>
      from <= r[i].start && r[i].stop == r[i].start + |p| && MatchesAt(p, text, r[i].start)
    ensures forall i, j :: 0 <= i < j < |r| ==> r[i].start < r[j].start && r[i].stop <= r[j].start
    decreases |text| + 1 - from
  {
    match FirstMatch(p, text, from)
    case None => []
    case Some(q) =>
      var s := Span(q, q + |p|);
      [s] + ScanFrom(p, text, Resume(s))
  }

  /** `re.finditer(pattern, text)`: the scan from the start of the text. */
  function Occurrences(p: Classes, text: string): seq<Span>
  {
    ScanFrom(p, text, 0)
  }

  /** Each occurrence is a match of the pattern's length that lies within the text. */
  lemma OccurrenceMatches(p: Classes, text: string, o: Span)
    requires o in Occurrences(p, text)
    ensures o.stop == o.start + |p| && MatchesAt(p, text, o.start) && o.stop <= |text|
  {
    var r := Occurrences(p, text);
    var n :| 0 <= n < |r| && r[n] == o;
  }

  /** Nothing matches at a start in `[lo, hi)`. */
  ghost predicate NoMatchIn(p: Classes, text: string, lo: int, hi: int)
  {
    forall q :: lo <= q < hi ==> !MatchesAt(p, text, q)
  }

  /** Nothing matches at a start at or after `lo`. */
  ghost predicate NoMatchFrom(p: Classes, text: string, lo: int)
  {
    forall q :: lo <= q ==> !MatchesAt(p, text, q)
  }

  /**
   * The reference meaning of a leftmost, non-overlapping scan from `from`:
   * when nothing matches at or after `from` it reports nothing; otherwise its
   * first span is a match of the pattern's length with nothing matching
   * between `from` and its start, and the rest is such a scan from where that
   * span ends.
   */
  ghost predicate Greedy(p: Classes, text: string, from: nat, r: seq<Span>)
    decreases |r|
  {
    if r == [] then NoMatchFrom(p, text, from)
    else
      && r[0].stop == r[0].start + |p|
      && MatchesAt(p, text, r[0].start)
      && from <= r[0].start
      && NoMatchIn(p, text, from, r[0].start)
      && Greedy(p, text, Resume(r[0]), r[1..])
  }

  /** One step of the scan: the leftmost match, then the scan from where it ends. */
  lemma ScanStep(p: Classes, text: string, from: nat, q: nat)
    requires FirstMatch(p, text, from) == Some(q)
    ensures ScanFrom(p, text, from) == [Span(q, q + |p|)] + ScanFrom(p, text, Resume(Span(q, q + |p|)))
  {
  }

  /** The scan skips no match: it is a leftmost, non-overlapping scan. */
  lemma {:induction false} ScanIsGreedy(p: Classes, text: string, from: nat)
    ensures Greedy(p, text, from, ScanFrom(p, text, from))
    decreases |text| + 1 - from
  {
    match FirstMatch(p, text, from)
    case None =>
    case Some(q) =>
      var s := Span(q, q + |p|);
      ScanStep(p, text, from, q);
      ScanIsGreedy(p, text, Resume(s));
      assert ScanFrom(p, text, from)[1..] == ScanFrom(p, text, Resume(s));
  }

  /** A match with nothing matching before it, from `from` on, is the leftmost one. */
  lemma FirstMatchIs(p: Classes, text: string, from: nat, q: nat)
    requires from <= q && MatchesAt(p, text, q) && NoMatchIn(p, text, from, q)
    ensures FirstMatch(p, text, from) == Some(q)
  {
  }

  /** A leftmost, non-overlapping scan is unique: it is exactly what the scanner reports. */
  lemma {:induction false} GreedyIsScan(p: Classes, text: string, from: nat, r: seq<Span>)
    requires Greedy(p, text, from, r)
    ensures r == ScanFrom(p, text, from)
    decreases |r|
  {
    if r != [] {
      var q := r[0].start;
      FirstMatchIs(p, text, from, q);
      ScanStep(p, text, from, q);
      GreedyIsScan(p, text, Resume(r[0]), r[1..]);
      assert r[0] == Span(q, q + |p|);
      assert r == [r[0]] + r[1..];
    }
  }

  /**
   * Consequences for the reader of the scan's output: nothing matches between
   * `from` and the first span, between the end of one span and the start of
   * the next, or after the end of the last span.
   */
  lemma {:induction false} ScanGaps(p: Classes, text: string, from: nat)
    ensures var r := ScanFrom(p, text, from);
      && (r == [] ==> NoMatchFrom(p, text, from))
      && (r != [] ==> NoMatchIn(p, text, from, r[0].start))
      && (r != [] ==> NoMatchFrom(p, text, Resume(r[|r| - 1])))
      && (forall i :: 0 <= i < |r| - 1 ==> NoMatchIn(p, text, Resume(r[i]), r[i + 1].start))
    decreases |text| + 1 - from
  {
    match FirstMatch(p, text, from)
    case None =>
    case Some(q) =>
      var s := Span(q, q + |p|);
      ScanStep(p, text, from, q);
      ScanGaps(p, text, Resume(s));
      var r := ScanFrom(p, text, from);
      var rest := ScanFrom(p, text, Resume(s));
      forall i | 0 <= i < |r| - 1
        ensures NoMatchIn(p, text, Resume(r[i]), r[i + 1].start)
      {
        if i > 0 {
          assert r[i] == rest[i - 1] && r[i + 1] == rest[i];
        }
      }
      if rest != [] {
        assert r[|r| - 1] == rest[|rest| - 1];
      }
  }

  /** An example: `ACGT` occurs twice, back to back, in `ACGTACGT`. */
  lemma ScanExample(p: Classes, text: string)
    requires p == [{'A'}, {'C'}, {'G'}, {'T'}] && text == "ACGTACGT"
    ensures Occurrences(p, text) == [Span(0, 4), Span(4, 8)]
  {
    var r := [Span(0, 4), Span(4, 8)];
    assert MatchesAt(p, text, 0);
    assert MatchesAt(p, text, 4);
    GreedyIsScan(p, text, 0, r);
  }
}

=== FILE: text.dfy ===
/**
 * Character classes and string helpers the script relies on: `str.upper`,
 * `str.isupper` / `str.islower` on one character, `str.strip` and joining
 * lines with no separator. Letter case is modelled on ASCII letters only.
 */
module Text {

  predicate IsUpper(c: char) { 'A' <= c <= 'Z' }

  predicate IsLower(c: char) { 'a' <= c <= 'z' }

  predicate IsLetter(c: char) { IsUpper(c) || IsLower(c) }

  /** Every character of `s` is an ASCII letter. */
  predicate AllLetters(s: string) { forall i :: 0 <= i < |s| ==> IsLetter(s[i]) }

  /** No character of `s` is a lower-case letter. */
  predicate NoLower(s: string) { forall i :: 0 <= i < |s| ==> !IsLower(s[i]) }

  /** Python's `str.upper` on one character (ASCII letters only). */
  function ToUpper(c: char): (u: char)
    ensures !IsLower(u)
    ensures IsLetter(c) <==> IsUpper(u)
    ensures IsUpper(c) || !IsLetter(c) ==> u == c
  {
    if IsLower(c) then (c as int - 32) as char else c
  }

  /** Python's `str.upper`: the same characters, each one upper-cased. */
  function Upper(s: string): (r: string)
    ensures |r| == |s|
    ensures forall i :: 0 <= i < |s| ==> r[i] == ToUpper(s[i])
    ensures NoLower(r)
  {
    seq(|s|, i requires 0 <= i < |s| => ToUpper(s[i]))
  }

  /** Upper-casing a string with no lower-case letters changes nothing. */
  lemma UpperOfNoLower(s: string)
    requires NoLower(s)
    ensures Upper(s) == s
  {
  }

  /** The characters for which Python's `str.isspace` holds. */
  predicate IsSpace(c: char)
  {
    var n := c as int;
    || 0x09 <= n <= 0x0D || 0x1C <= n <= 0x20 || n == 0x85 || n == 0xA0 || n == 0x1680
    || 0x2000 <= n <= 0x200A || n == 0x2028 || n == 0x2029 || n == 0x202F || n == 0x205F || n == 0x3000
  }

  /** Every character of `s` is whitespace (true of the empty string). */
  predicate Blank(s: string) { forall i :: 0 <= i < |s| ==> IsSpace(s[i]) }

  /** The number of whitespace characters at the front of `s`. */
  function LeadingSpaces(s: string): (n: nat)
    ensures n <= |s|
    ensures Blank(s[..n])
    ensures n < |s| ==> !IsSpace(s[n])
  {
    if s != [] && IsSpace(s[0]) then 1 + LeadingSpaces(s[1..]) else 0
  }

  /** The number of whitespace characters at the back of `s`. */
  function TrailingSpaces(s: string): (n: nat)
    ensures n <= |s|
    ensures Blank(s[|s| - n..])
    ensures n < |s| ==> !IsSpace(s[|s| - n - 1])
  {
    if s != [] && IsSpace(s[|s| - 1]) then 1 + TrailingSpaces(s[..|s| - 1]) else 0
  }

  /**
   * Python's `str.strip()`: `s` with its leading and trailing whitespace removed.
   * The result is the slice of `s` between the two whitespace runs; it is empty
   * exactly when `s` is blank, and otherwise begins and ends with a non-space.
   */
  function Strip(s: string): (r: string)
    ensures r == [] <==> Blank(s)
    ensures r != [] ==> !IsSpace(r[0]) && !IsSpace(r[|r| - 1])
    ensures r != [] ==> r == s[LeadingSpaces(s)..|s| - TrailingSpaces(s)]
    ensures r != [] ==> Blank(s[..LeadingSpaces(s)]) && Blank(s[|s| - TrailingSpaces(s)..])
  {
    var a := LeadingSpaces(s);
    if a == |s| then
      assert s[..a] == s;
      []
    else
      var b := TrailingSpaces(s);
      assert !IsSpace(s[a]);
      s[a..|s| - b]
  }

  /** A string that neither starts nor ends with whitespace is its own strip. */
  lemma StripUnspaced(s: string)
    requires s != [] && !IsSpace(s[0]) && !IsSpace(s[|s| - 1])
    ensures Strip(s) == s
  {
    assert s[0..|s|] == s;
  }

  /** A line with no surrounding whitespace, read with its trailing newline, strips to itself. */
  lemma StripNewline(s: string)
    requires s != [] && !IsSpace(s[0]) && !IsSpace(s[|s| - 1])
    ensures Strip(s + "\n") == s
  {
    StripTrailingNewline(s);
    StripUnspaced(s);
  }

  /** A newline after `s` joins the leading run only when `s` is blank. */
  lemma {:induction false} LeadingBeforeNewline(s: string)
    ensures LeadingSpaces(s + "\n") == if Blank(s) then |s| + 1 else LeadingSpaces(s)
  {
    var t := s + "\n";
    if s == [] {
      assert t == "\n" && t[1..] == [];
    } else {
      assert t[0] == s[0] && t[1..] == s[1..] + "\n";
      LeadingBeforeNewline(s[1..]);
      if IsSpace(s[0]) {
        assert Blank(s) <==> Blank(s[1..]) by {
          assert forall i :: 0 < i < |s| ==> s[i] == s[1..][i - 1];
        }
      }
    }
  }

  /** A newline after `s` adds one to the trailing run. */
  lemma TrailingBeforeNewline(s: string)
    ensures TrailingSpaces(s + "\n") == 1 + TrailingSpaces(s)
  {
    var t := s + "\n";
    assert t[|t| - 1] == '\n' && t[..|t| - 1] == s;
  }

  /** The strip of a line that is not blank is the slice between its whitespace runs. */
  lemma StripOpen(s: string)
    requires !Blank(s)
    ensures Strip(s) == s[LeadingSpaces(s)..|s| - TrailingSpaces(s)]
  {
  }

  /** A line and the same line with a newline are blank together. */
  lemma BlankBeforeNewline(s: string)
    ensures Blank(s + "\n") <==> Blank(s)
  {
    var t := s + "\n";
    assert forall i :: 0 <= i < |s| ==> t[i] == s[i];
    assert IsSpace(t[|s|]);
  }

  /** A slice inside `s` is the same slice of `s` followed by anything. */
  lemma SliceBefore(s: string, u: string, x: nat, y: nat)
    requires x <= y <= |s|
    ensures (s + u)[x..y] == s[x..y]
  {
  }

  /** A line that is not blank strips to the same text with a newline after it. */
  lemma StripOpenNewline(s: string)
    requires !Blank(s)
    ensures Strip(s + "\n") == Strip(s)
  {
    var a, b := LeadingSpaces(s), TrailingSpaces(s);
    BlankBeforeNewline(s);
    LeadingBeforeNewline(s);
    TrailingBeforeNewline(s);
    StripOpen(s);
    StripOpen(s + "\n");
    SliceBefore(s, "\n", a, |s| - b);
  }

  /** A trailing newline never changes what a line strips to, as `readline().strip()` relies on. */
  lemma StripTrailingNewline(s: string)
    ensures Strip(s + "\n") == Strip(s)
  {
    BlankBeforeNewline(s);
    if !Blank(s) {
      StripOpenNewline(s);
    }
  }

  /** The lines joined with no separator, as `+=` on a string builds them. */
  function Concat(lines: seq<string>): (r: string)
    ensures r == [] <==> forall i :: 0 <= i < |lines| ==> lines[i] == []
  {
    if lines == [] then [] else lines[0] + Concat(lines[1..])
  }
}

=== FILE: wrappers.dfy ===
/** Failure-carrying result types shared by the parsers, the exon locator and the run. */
module Wrappers {

  /** An optional value: a search that found nothing, or a pattern outside the modelled syntax. */
  datatype Option<+T> = None | Some(value: T)

  /** The value of a step that either completes or stops the whole run with an error. */
  datatype Result<+R, +E> = Success(value: R) | Failure(error: E)
}
